=== FILE: README.md ===
# Terraform discovery: the per-namespace pipeline

This project models the core of the Terraform discovery job. The job walks every component in the service catalogue and every environment of each component. For each namespace not yet seen in the run, it:

- parses the Terraform under the namespace's `resources` directory;
- turns the RDS modules, elasticache modules and `http` pingdom checks it finds into catalogue records;
- writes one namespace record back to the catalogue, as an add when the namespace is new and as an update of the existing id otherwise.

The model is a sequential, pure pipeline over Python-like dynamic values:

- `Values` holds the dynamic values, with truthiness, `in`, `d[k]`, `isinstance(v, int)` and `str(v)`. Exceptions are a `Result` that is `Raise(KeyError | TypeError | AttributeError)`.
- `Text` holds decimal rendering and substring search.
- `ModuleVersion` reads the module version from a module's `source`. It is a direct scan, proved to agree with the meaning of the job's regular expression. That meaning is stated separately as `RegexMatch`.
- `Records` handles one record:
  - drop the parser's `id` and `__tfmeta`;
  - copy the metadata into the `tf_*` keys;
  - stamp `tf_mod_version` on module records;
  - turn an integer `db_max_allocated_storage` into a string;
  - resolve a `parameter_group_name` reference to its `__name__`;
  - reuse the catalogue id of an existing entry with the same `tf_path`.
- `Namespace` covers one namespace:
  - the module loop, with its RDS and elasticache branches;
  - the pingdom pass, which rewrites the parsed checks in place;
  - the final add-or-update.
- `Discovery` covers the whole run:
  - the run-wide list of claimed namespaces;
  - one component's environments;
  - the fold over all components.

  The work for one claimed namespace is a parameter of these functions. `Discover` runs them with the job's own per-namespace work.

Crashes are part of the model. An exception inside a namespace ends that component's processing, as the escaping exception ends its worker thread. The namespace stays claimed, nothing is written for it, the component's later environments are not visited, and the other components carry on. A component without a `name`, by contrast, ends the whole loop after its own processing, because that name is read in the loop itself.

The catalogue and the parser are inputs, not code:

- A `World` maps each namespace name to its catalogue record.
- It also maps each namespace whose resources directory exists to the parse of that directory.
- A run's writes are recorded as a trace of `Add`/`Update` events.

Points where the code may surprise a reader:

- Records keep every attribute of the parsed object. No per-kind allow-list is applied, and no absent field is filled in with null.
- The version marker is `?ref=` or `\ref=` (the class `[\\?]`), not a percent-escaped form.
- A source without a version gives the empty string, not null.
- Only the first component of a version may have several digits: `5.12.1` yields no version.
- Each kind's entry in the namespace record is a one-element list that the last matching module overwrites. Records are not appended.
- An exception is not isolated to its namespace. It ends the rest of the component, as described above.

## Model

| member | source | states |
|---|---|---|
| `Text.NatToString` | terraform_discovery.py:99-101 | `str(n)` of a non-negative int is a non-empty run of digits with no leading zero, and reads back as `n` under the reference decoding `DigitsValue` |
| `Text.IntToString` | terraform_discovery.py:99-101 | `str(i)` starts with `-` exactly when `i` is negative, and the rest reads back as the magnitude. The digits are canonical: no leading zero, except for `0` itself |
| `Text.NatToStringInjective` | terraform_discovery.py:101 | distinct non-negative storage sizes never render to the same string |
| `Text.IntToStringInjective` | terraform_discovery.py:101 | distinct integers never render to the same string, so the coercion loses no information |
| `Text.Contains` | terraform_discovery.py:88 | the substring test holds exactly when the needle occurs at some position of the string |
| `Values.In` | terraform_discovery.py:177 | `x in v` is a substring test on strings, membership on lists and a key test on dicts, and raises exactly on scalars and None |
| `Values.PyIntToString` | terraform_discovery.py:99-101 | `str` of an int is a `-` exactly for negative numbers followed by canonical digits that read back as the magnitude. `True`/`False` (ints by `isinstance`) render as `"True"`/`"False"` |
| `Values.PyIntToStringInjective` | terraform_discovery.py:99-101 | two int-like values render alike only when they are the same value, so the storage coercion loses nothing, and a bool never renders like an int |
| `ModuleVersion.IsVersion` | terraform_discovery.py:82 | the direct test agrees with the language `[0-9]+(\.[0-9])?(\.[0-9])?` in both directions |
| `ModuleVersion.ExtractVersion` | terraform_discovery.py:80-85 | the result is non-empty exactly when the pattern matches somewhere. It is then the matched text, which has the version shape. Otherwise it is `""` |
| `ModuleVersion.CandidateMatches` | terraform_discovery.py:82-83 | a non-empty scan result is a match of the pattern: it ends at the end of the source (before a final newline) and follows a `?ref=` or `\ref=` marker |
| `ModuleVersion.MatchesAreCandidate` | terraform_discovery.py:82-83 | every match of the pattern is exactly the text the scan returns |
| `ModuleVersion.MatchPinned` | terraform_discovery.py:82 | any match ends at the end of the source (or just before a final newline) and starts right after the source's last `=`, so a match is unique |
| `ModuleVersion.ExamplePinnedVersion` | terraform_discovery.py:80-85 | `rds?ref=5.2.1` yields `5.2.1` |
| `ModuleVersion.ExampleTrailingNewline` | terraform_discovery.py:80-85 | a backslash marker and a final newline still yield the version (`$` matches before a final newline) |
| `ModuleVersion.ExampleTwoDigitMinor` | terraform_discovery.py:80-85 | `?ref=5.12.1` yields no version, because only the first component may have several digits |
| `ModuleVersion.ExampleNoRef` | terraform_discovery.py:80-85 | a source without a `ref=` pin yields the empty string, not an error |
| `Records.ReadMeta` | terraform_discovery.py:93-105 | reading the five metadata fields succeeds exactly when `__tfmeta` is a dict holding all of them, and returns their values |
| `Records.Stamp` | terraform_discovery.py:93-105 | the five `tf_*` keys carry the metadata values, and every other key is untouched |
| `Records.CoerceStorage` | terraform_discovery.py:99-101 | `db_max_allocated_storage` becomes `str` of itself when it is an int (bools included) and stays as it was otherwise. Presence and all other keys are unchanged |
| `Records.ResolveParameterGroup` | terraform_discovery.py:150-151 | a dict `parameter_group_name` is replaced by its `__name__`, and one without `__name__` raises. Scalars and all other keys are unchanged |
| `Records.FilterFault` | terraform_discovery.py:113-118 | scanning existing entries raises exactly when one is not a dict with `tf_path`, and the exception is that of the first such entry: a TypeError when it is not a dict, a KeyError when it is a dict without `tf_path`. It raises only a KeyError when all entries are dicts, and never an AttributeError |
| `Records.FirstMatch` | terraform_discovery.py:113-118 | `[0]` of the filtered list is the first entry whose `tf_path` equals the object's path, and there is none when no entry matches |
| `Records.LookupId` | terraform_discovery.py:109-121 | an id is attached only when the scan got through every existing entry (each a dict with `tf_path`), and it is then the id of the first entry with the same `tf_path`. When every entry is such a dict, an id is attached exactly when that first match has one, and no match gives no id and no error. The elasticache lookup (lines 155-168) also swallows KeyError, so it never raises on dict entries. Attributes that are not a dict, or a truthy non-list under the kind's key, raise |
| `Records.LookupIdRaises` | terraform_discovery.py:109-121 | the lookup raises exactly when the attributes cannot be iterated, or the first existing entry that is not a dict with `tf_path` is not a dict at all (TypeError, caught by no lookup). For RDS and pingdom (lines 195-208) it also raises on a dict without `tf_path` or a first match without `id`. Those are KeyErrors, which only the elasticache lookup (line 167) catches |
| `Records.Base` | terraform_discovery.py:89-105 | the parser `id` and `__tfmeta` are gone, the five `tf_*` keys carry the metadata, and every other attribute is kept |
| `Records.RdsRecord` | terraform_discovery.py:98-106 | an RDS record carries the module version and the coerced storage value, and keeps every attribute the RDS branch does not touch |
| `Records.CacheRecord` | terraform_discovery.py:149-153 | an elasticache record raises exactly on a dangling parameter-group reference. Otherwise it carries the module version and the resolved parameter group, and keeps every untouched attribute |
| `Records.Reshape` | terraform_discovery.py:89-153 | the parser id and metadata are gone and the metadata is stamped. Module records carry the version, and pingdom checks keep theirs untouched. The RDS storage coercion and the elasticache reference resolution are applied, and every other attribute is kept. Raises only on a dangling parameter-group reference |
| `Records.Normalize` | terraform_discovery.py:89-124 | raises exactly when `id` or readable metadata is missing, a parameter-group reference has no name, or the id lookup raises. On success the record has no `__tfmeta`, carries the metadata under `tf_*` and carries the reused id. Kinds, versions and coercions are as in `Reshape`, and all other attributes are kept |
| `Namespace.Upsert` | terraform_discovery.py:37-44 | the write carries the data unchanged. It is an add exactly when the id is falsy, and otherwise an update of that id |
| `Namespace.ConsumeAll` | terraform_discovery.py:175-211 | converting the checks succeeds exactly when every check's `type` supports `in` and every pending check converts. Each result is that check's conversion, in place |
| `Namespace.PassData` | terraform_discovery.py:212 | the namespace's `pingdom_check` becomes the converted record of the last pending check, or is left alone when none is pending |
| `Namespace.PingdomPass` | terraform_discovery.py:174-212 | the pass succeeds exactly when every check's `type` supports `in` and every pending check converts. Each check is replaced in place by what it converts to. The namespace's `pingdom_check` becomes the record of the last pending check, or is left alone when none is pending |
| `Namespace.PassOverSettled` | terraform_discovery.py:177 | a pass over checks that are all settled (each `type` supports `in` and none still carries metadata) changes neither the checks nor the record |
| `Namespace.PassSettles` | terraform_discovery.py:211 | after a successful pass no check is pending |
| `Namespace.PingdomPassIdempotent` | terraform_discovery.py:174-212 | running the pass again on its own output changes nothing |
| `Namespace.CatalogueId` | terraform_discovery.py:60-65 | the namespace id is the catalogue record's `id`, and None without a record or without an `id` |
| `Namespace.CatalogueAttributes` | terraform_discovery.py:61-63 | the existing attributes are the catalogue record's `attributes`, and `{}` without a record or without `attributes` |
| `Namespace.SourceVersion` | terraform_discovery.py:80-85 | the version is non-empty exactly when the source is a string in which the pattern matches, and is then the match. A source that is not a string makes `re.search` raise a TypeError, which is caught, so the version is `""` |
| `Namespace.ProcessModule` | terraform_discovery.py:78-212 | one module iteration raises a KeyError on a module without `source`, since only TypeError is caught around `m['source']`. Without pingdom checks in the parse, it leaves the checks alone |
| `Namespace.ModuleKeepsOthers` | terraform_discovery.py:78-212 | one module iteration changes no key of the namespace record but `rds_instance`, `elasticache_cluster` and `pingdom_check` |
| `Namespace.Branch` | terraform_discovery.py:88-125 | a module whose source holds the marker is rewritten into its record, which becomes the kind's only entry. Any other module passes through unchanged. Raises exactly when `source` is missing, `in` raises on it, or the conversion raises |
| `Namespace.Branches` | terraform_discovery.py:88-172 | the two module branches change no key of the record but `rds_instance` and `elasticache_cluster`, and keep the one-record-per-key shape |
| `Namespace.BranchesRecord` | terraform_discovery.py:88-172 | after the two branches, the RDS or elasticache entry is the module's record when its source holds the marker, and is unchanged otherwise |
| `Namespace.RdsEntry` | terraform_discovery.py:88-125 | the RDS entry is set by the RDS branch and left alone by the elasticache branch |
| `Namespace.CacheEntry` | terraform_discovery.py:127-172 | the elasticache entry is the record of a module marked for elasticache, and is unchanged otherwise |
| `Namespace.BothMarkersFail` | terraform_discovery.py:124-134 | the two branches raise on a module whose source names both modules |
| `Namespace.BothMarkersRaise` | terraform_discovery.py:124-134 | a module whose source names both the RDS and the elasticache module always raises, because the RDS branch deletes the metadata the elasticache branch reads |
| `Namespace.ModuleKeepsShape` | terraform_discovery.py:78-212 | one module iteration keeps `name` and keeps every resource key a one-element list of a metadata-free record |
| `Namespace.ModuleRecord` | terraform_discovery.py:88-172 | after one module iteration, the RDS or elasticache entry is the module's record when its source holds the marker, and is unchanged otherwise |
| `Namespace.ModuleChecks` | terraform_discovery.py:174-212 | a module iteration with pingdom checks leaves all of them consumed. Once consumed, neither the checks nor the `pingdom_check` entry change again |
| `Namespace.ProcessModules` | terraform_discovery.py:78-212 | the module loop keeps the namespace's `name` and the one-record-per-key shape |
| `Namespace.LastMatchWins` | terraform_discovery.py:78-172 | after the loop, the RDS or elasticache entry is the record of the last module of that kind. Without one, the entry is what it was before the loop |
| `Namespace.ChecksTakenByFirstModule` | terraform_discovery.py:174-212 | the checks and the `pingdom_check` entry after the whole loop are exactly what the first module's iteration left |
| `Namespace.FirstModuleTakesChecks` | terraform_discovery.py:174-212 | the first iteration sets `pingdom_check` to the record of the last pending check of the parse, or sets nothing when none is pending |
| `Namespace.NoPassNoEntry` | terraform_discovery.py:174 | without pingdom checks in the parse, or without modules, the loop never touches `pingdom_check` |
| `Namespace.ProcessNamespace` | terraform_discovery.py:60-215 | the write is an add or update chosen by the catalogue id. Its data is `name` plus one-element lists of metadata-free records. Without a resources directory, or with no modules, the data is just the name, and the write still happens. A parse without a `module` block raises |
| `Namespace.NamespaceRecord` | terraform_discovery.py:68-172 | the written record holds, for RDS and for elasticache, the record of the last module of that kind, and no entry without one |
| `Namespace.NamespaceChecks` | terraform_discovery.py:174-212 | when there are modules and pingdom checks, the written record holds the record of the last pending check, and no entry when none is pending |
| `Namespace.NoChecksNoEntry` | terraform_discovery.py:174 | a namespace with no modules or no pingdom checks is written without a `pingdom_check` entry |
| `Discovery.ProcessEnvironment` | terraform_discovery.py:49-58 | for any per-namespace work, an already claimed namespace is skipped with no lookup and no write. A new one is claimed before it is processed and stays claimed if processing raises. It is followed by exactly its one write on success, and by none while stopping the component on an exception. An environment without a name stops the component before any claim |
| `Discovery.EnvironmentKeepsConsistent` | terraform_discovery.py:52-58 | one environment keeps the run consistent: no namespace is claimed twice, and the writes are exactly the successful namespaces' writes, in claim order |
| `Discovery.ProcessRepo` | terraform_discovery.py:47-217 | walking a component's environments keeps the run consistent, and only adds claims and writes |
| `Discovery.RepoClaims` | terraform_discovery.py:49-58 | when the environments before one all have a name and process without raising, and that one has a name, its namespace is claimed by the walk, whether it was new, already claimed, or raised |
| `Discovery.RepoStops` | terraform_discovery.py:49-58 | the walk ends at the first exception: an environment without a name, or a new namespace whose processing raises, leaves the later environments of the component unvisited |
| `Discovery.ComponentsClaim` | terraform_discovery.py:224-237 | a namespace a component's walk reaches is claimed by the whole loop, whatever earlier components raised, as long as every earlier component has a name |
| `Discovery.ProcessComponents` | terraform_discovery.py:220-245 | processing the components keeps the run consistent, and only adds claims and writes |
| `Discovery.ProcessComponent` | terraform_discovery.py:224-242 | a component without `environments` adds no claim and no write. Processing a component keeps the run consistent and only adds claims and writes |
| `Discovery.NamelessComponentStops` | terraform_discovery.py:238 | a component without a name ends the loop: the run is the same as over the components up to and including it |
| `Discovery.UpsertsNamed` | terraform_discovery.py:52-58 | every write is named after a claimed namespace, and without duplicate claims no two writes share a name |
| `Discovery.AtMostOnce` | terraform_discovery.py:48-58 | across a whole run no namespace is claimed twice, every write is for a claimed namespace, and no namespace is written twice |
| `Discovery.ProcessingNamesWrites` | terraform_discovery.py:68 | the job's per-namespace work writes a record whose `name` is the namespace |
| `Discovery.Discover` | terraform_discovery.py:220-245 | the whole run, from nothing claimed and nothing written, ends consistent: no namespace claimed twice and the writes exactly those of the successful namespaces, in claim order |
| `Discovery.UpsertsContain` | terraform_discovery.py:214-215 | a claimed namespace that processes successfully has its write among the run's writes |
| `Discovery.ReachedWritten` | terraform_discovery.py:49-58 | a namespace the run reaches (every earlier component named, every earlier environment of its component passing) and that processes successfully is written, as an add exactly when the catalogue has no truthy id for it |
| `Discovery.ExactlyOnce` | terraform_discovery.py:214-215 | every claimed namespace that processes successfully is written. The write is an add when the catalogue has no truthy id for it, and an update of that id otherwise |

## Left out

- Threads, the `MAX_THREADS` polling with `sleep`, the parser lock and the final `t_repo.join()` are left out; the run is a sequential fold over components. With no components, that `join()` would hit an unbound variable; `main` calls `process_components` only when the catalogue returned components (lines 291-292), so the job never reaches that case.
- Discovery.ProcessComponents is weaker than the source: it models one sequential order of the components. The interleavings that concurrent threads would allow, including the race between the membership test and the append on `namespaces`, are not modelled.
- The Terraform parser (`load_from_path`) is an input: the parse of each namespace is given by the `World`. Parser exceptions are not modelled.
- The filesystem test `os.path.isdir` is modelled as presence of the namespace in `World.resources`. The path layout under `TEMP_DIR` is not modelled.
- Catalogue I/O is not modelled:
  - `get_record` is a lookup in `World.catalogue`;
  - `add`/`update` are recorded as `Add`/`Update` events;
  - transport failures and the connection check in `Services` are not modelled.
- Logging, Slack alerts, git checkout and `main` are left out, because they do not affect the records written.
- Discovery.ProcessEnvironment: a missing `namespace` in an environment defaults to `{}` in the source. The model gives every environment a string namespace.
- Discovery.ProcessComponents: the component threads are daemons, and only the last one started is joined (line 244). A namespace claimed by a thread still running when the job exits may never be written. `ExactlyOnce` and `ReachedWritten` therefore hold for the sequential run only.
- Discovery.ProcessComponents: the `name` read at line 238 happens after the component's thread has started. The model processes that component and then stops, which is the sequential reading of that order. An exception there also ends `main`, which is not modelled.
- Records.LookupId is weaker than the source in one respect: the `tf_path` comparison is structural equality of values. Python's cross-type equality (`1 == True == 1.0`) is not modelled, and floats are not among the modelled values.
- Namespace.ProcessNamespace: the repeated logging of the namespace id and data (lines 38, 51, 64-66, 214) is not modelled.
- `classes/github.py` and `processes/scheduled_jobs.py` are not part of this model. The namespace deletion sweep and the template-binding records do not appear in `terraform_discovery.py` either.

=== FILE: discovery.dfy ===
/** The whole run (terraform_discovery.py:47-58, 215-245): components are
    processed one after another, each walking its environments; a run-wide
    list of claimed namespaces makes sure each namespace is looked up and
    written at most once, and an exception ends only the component it
    happens in. The work done for one claimed namespace is a parameter
    here; `Discover` runs the job with `ProcessNamespace`. */
module Discovery {
  import opened Values
  import opened Namespace

  /** An environment of a component; `name` is None when the catalogue entry has no name. */
  datatype Environment = Environment(name: Option<string>, namespace: string)

  /** A catalogue component: `name` is `attributes.name` and `environments`
      is `attributes.environments`, each None when the catalogue entry lacks
      it (both None when it has no `attributes`). */
  datatype Component = Component(name: Option<string>, environments: Option<seq<Environment>>)

  /** The work for one claimed namespace: the catalogue write it ends in, or
      the exception that escapes it. */
  type Processor = string -> Result<Event>

  /** The shared state of a run: the namespaces claimed so far, in claim
      order, and the catalogue writes made so far, in order. */
  datatype Run = Run(claimed: seq<string>, trace: seq<Event>)

  /** The outcome of one environment: carry on with the next, or stop the
      component because an exception escaped. */
  datatype Outcome = Continue(run: Run) | Stop(run: Run)

  predicate NoDuplicates(xs: seq<string>) {
    forall i, j :: 0 <= i < j < |xs| ==> xs[i] != xs[j]
  }

  /** The writes a run makes for its claimed namespaces: one per namespace
      whose processing succeeds, in claim order. */
  function Upserts(claimed: seq<string>, process: Processor): seq<Event> {
    if claimed == [] then []
    else
      Upserts(claimed[..|claimed| - 1], process)
        + match process(claimed[|claimed| - 1]) case Ok(e) => [e] case Raise(_) => []
  }

  /** The run-wide invariant: no namespace is claimed twice, and the trace is
      exactly the writes for the claimed namespaces. */
  predicate Consistent(run: Run, process: Processor) {
    NoDuplicates(run.claimed) && run.trace == Upserts(run.claimed, process)
  }

  /** One environment of process_repo (lines 49-71, 214-215): reading its
      name for the log line raises without one; a claimed namespace is
      skipped; otherwise the namespace is claimed before anything else, then
      processed and written. */
  function ProcessEnvironment(env: Environment, process: Processor, run: Run): (o: Outcome)
    // already claimed: skipped with no lookup and no write
    ensures env.name.Some? && env.namespace in run.claimed ==> o == Continue(run)
    // newly claimed: the claim is kept even if processing then raises
    ensures env.name.Some? && env.namespace !in run.claimed ==>
      o.run.claimed == run.claimed + [env.namespace]
    // and it is followed by exactly one write for it when processing succeeds, none otherwise
    ensures env.name.Some? && env.namespace !in run.claimed ==>
      match process(env.namespace)
      case Ok(e) => o == Continue(Run(run.claimed + [env.namespace], run.trace + [e]))
      case Raise(_) => o == Stop(Run(run.claimed + [env.namespace], run.trace))
    ensures env.name.None? ==> o == Stop(run)
  {
    if env.name.None? then Stop(run)
    else if env.namespace in run.claimed then Continue(run)
    else
      var claimed := run.claimed + [env.namespace];
      match process(env.namespace)
      case Ok(e) => Continue(Run(claimed, run.trace + [e]))
      case Raise(_) => Stop(Run(claimed, run.trace))
  }

  /** Claiming a new namespace keeps the run consistent. */
  lemma EnvironmentKeepsConsistent(env: Environment, process: Processor, run: Run)
    ensures Consistent(run, process) ==> Consistent(ProcessEnvironment(env, process, run).run, process)
  {
    if Consistent(run, process) && env.name.Some? && env.namespace !in run.claimed {
      var claimed := run.claimed + [env.namespace];
      assert claimed[..|claimed| - 1] == run.claimed;
    }
  }

  /** process_repo (lines 47-217) over a component's environments, up to the
      end or to the first exception. */
  function ProcessRepo(envs: seq<Environment>, process: Processor, run: Run): (r: Run)
    ensures Consistent(run, process) ==> Consistent(r, process)
    // the claimed list and the trace only grow
    ensures run.claimed <= r.claimed && run.trace <= r.trace
    decreases |envs|
  {
    if envs == [] then run
    else
      EnvironmentKeepsConsistent(envs[0], process, run);
      match ProcessEnvironment(envs[0], process, run)
      case Continue(next) => ProcessRepo(envs[1..], process, next)
      case Stop(next) => next
  }

  /** One component of process_components (lines 224-242): its repo is
      processed (nothing happens when `attributes.environments` is missing,
      as line 49 raises at once); a missing `name` then raises at line 238. */
  function ProcessComponent(c: Component, process: Processor, run: Run): (r: Run)
    ensures c.environments.None? ==> r == run
    ensures Consistent(run, process) ==> Consistent(r, process)
    ensures run.claimed <= r.claimed && run.trace <= r.trace
  {
    if c.environments.Some? then ProcessRepo(c.environments.value, process, run) else run
  }

  /** process_components (lines 220-245) as a sequential fold: an exception
      inside a component's processing does not stop the others, but a
      component without a name ends the loop after its own processing. */
  function ProcessComponents(components: seq<Component>, process: Processor, run: Run): (r: Run)
    ensures Consistent(run, process) ==> Consistent(r, process)
    ensures run.claimed <= r.claimed && run.trace <= r.trace
    decreases |components|
  {
    if components == [] then run
    else
      var next := ProcessComponent(components[0], process, run);
      if components[0].name.None? then next
      else ProcessComponents(components[1..], process, next)
  }

  /** Line 238 raises in the loop itself on a component without a name, so
      no component after it is processed. */
  lemma {:induction false} NamelessComponentStops(components: seq<Component>, process: Processor, run: Run, i: nat)
    requires i < |components| && components[i].name.None?
    ensures ProcessComponents(components, process, run) == ProcessComponents(components[..i + 1], process, run)
    decreases i
  {
    var next := ProcessComponent(components[0], process, run);
    if i > 0 && components[0].name.Some? {
      NamelessComponentStops(components[1..], process, next, i - 1);
      assert components[..i + 1][1..] == components[1..][..i];
    }
  }

  /** The environment gets past its own iteration without an exception: it
      has a name, and its namespace processes without raising. */
  predicate Passes(env: Environment, process: Processor) {
    env.name.Some? && process(env.namespace).Ok?
  }

  lemma InGrown(a: seq<string>, b: seq<string>, x: string)
    requires a <= b && x in a
    ensures x in b
  {
    var k :| 0 <= k < |a| && a[k] == x;
    assert b[k] == x;
  }

  /** Every new namespace the walk reaches is claimed: when the environments
      before `envs[j]` all pass and `envs[j]` has a name, its namespace ends
      up claimed, whether it was new, already claimed, or raised. */
  lemma {:induction false} RepoClaims(envs: seq<Environment>, process: Processor, run: Run, j: nat)
    requires j < |envs|
    requires forall k :: 0 <= k < j ==> Passes(envs[k], process)
    requires envs[j].name.Some?
    ensures envs[j].namespace in ProcessRepo(envs, process, run).claimed
    decreases j
  {
    var o := ProcessEnvironment(envs[0], process, run);
    var r := ProcessRepo(envs, process, run);
    if j == 0 {
      if envs[0].namespace in run.claimed {
        InGrown(run.claimed, r.claimed, envs[0].namespace);
      } else {
        assert envs[0].namespace in o.run.claimed;
        match o
        case Continue(next) =>
          assert r == ProcessRepo(envs[1..], process, next);
          InGrown(next.claimed, r.claimed, envs[0].namespace);
        case Stop(next) =>
      }
    } else {
      assert Passes(envs[0], process);
      assert o.Continue?;
      assert r == ProcessRepo(envs[1..], process, o.run);
      RepoClaims(envs[1..], process, o.run, j - 1);
    }
  }

  /** An exception ends the walk: when the environments before `envs[j]`
      pass and `envs[j]` has no name, or claims a new namespace whose
      processing raises, no later environment of the component is visited. */
  lemma {:induction false} RepoStops(envs: seq<Environment>, process: Processor, run: Run, j: nat)
    requires j < |envs|
    requires forall k :: 0 <= k < j ==> Passes(envs[k], process)
    requires || envs[j].name.None?
             || (&& envs[j].namespace !in run.claimed
                 && (forall k :: 0 <= k < j ==> envs[k].namespace != envs[j].namespace)
                 && process(envs[j].namespace).Raise?)
    ensures ProcessRepo(envs, process, run) == ProcessRepo(envs[..j + 1], process, run)
    decreases j
  {
    if j > 0 {
      var o := ProcessEnvironment(envs[0], process, run);
      assert Passes(envs[0], process);
      assert o.Continue?;
      assert envs[j] == envs[1..][j - 1];
      assert envs[j].name.None? || envs[j].namespace !in o.run.claimed;
      RepoStops(envs[1..], process, o.run, j - 1);
      assert envs[..j + 1][1..] == envs[1..][..j];
    }
  }

  /** Per-component isolation: a namespace that a component's walk reaches
      is claimed by the whole run, whatever earlier components raised, as
      long as the loop itself gets to that component. */
  lemma {:induction false} ComponentsClaim(cs: seq<Component>, process: Processor, run: Run, i: nat, j: nat)
    requires i < |cs| && forall k :: 0 <= k < i ==> cs[k].name.Some?
    requires cs[i].environments.Some? && j < |cs[i].environments.value|
    requires forall k :: 0 <= k < j ==> Passes(cs[i].environments.value[k], process)
    requires cs[i].environments.value[j].name.Some?
    ensures cs[i].environments.value[j].namespace in ProcessComponents(cs, process, run).claimed
    decreases i
  {
    var next := ProcessComponent(cs[0], process, run);
    var r := ProcessComponents(cs, process, run);
    if i == 0 {
      RepoClaims(cs[0].environments.value, process, run, j);
      if cs[0].name.Some? {
        InGrown(next.claimed, r.claimed, cs[0].environments.value[j].namespace);
      }
    } else {
      assert r == ProcessComponents(cs[1..], process, next);
      ComponentsClaim(cs[1..], process, next, i - 1, j);
    }
  }

  /** The namespace a write is for. */
  function Written(e: Event): Value {
    if "name" in e.data then e.data["name"] else Null
  }

  /** Every write the processor makes is named after its namespace. */
  ghost predicate NamesWrites(process: Processor) {
    forall ns :: process(ns).Ok? ==> Written(process(ns).value) == Str(ns)
  }

  /** The writes of `Upserts` are for claimed namespaces, and for distinct
      ones when no namespace was claimed twice. */
  lemma {:induction false} UpsertsNamed(claimed: seq<string>, process: Processor)
    requires NamesWrites(process)
    ensures forall i :: 0 <= i < |Upserts(claimed, process)| ==>
      Written(Upserts(claimed, process)[i]).Str? && Written(Upserts(claimed, process)[i]).s in claimed
    ensures NoDuplicates(claimed) ==>
      forall i, i' :: 0 <= i < i' < |Upserts(claimed, process)| ==>
        Written(Upserts(claimed, process)[i]) != Written(Upserts(claimed, process)[i'])
  {
    if claimed != [] {
      var front := claimed[..|claimed| - 1];
      var last := claimed[|claimed| - 1];
      UpsertsNamed(front, process);
      var u := Upserts(front, process);
      var all := Upserts(claimed, process);
      assert forall ns :: ns in front ==> ns in claimed;
      match process(last)
      case Raise(_) =>
        assert all == u;
        assert NoDuplicates(claimed) ==> NoDuplicates(front);
      case Ok(e) =>
        assert all == u + [e];
        assert Written(e) == Str(last);
        assert NoDuplicates(claimed) ==> NoDuplicates(front) && last !in front;
    }
  }

  /** A claimed namespace whose processing succeeds has its write among the run's writes. */
  lemma {:induction false} UpsertsContain(claimed: seq<string>, process: Processor, ns: string)
    requires ns in claimed && process(ns).Ok?
    ensures process(ns).value in Upserts(claimed, process)
  {
    var front := claimed[..|claimed| - 1];
    var last := claimed[|claimed| - 1];
    if last != ns {
      assert ns in front by {
        var j :| 0 <= j < |claimed| && claimed[j] == ns;
        assert j != |claimed| - 1;
        assert front[j] == ns;
      }
      UpsertsContain(front, process, ns);
    }
  }

  /** The job's per-namespace work over the catalogue and the parses of `world`. */
  function Processing(world: World): Processor {
    ns => ProcessNamespace(ns, world)
  }

  lemma ProcessingNamesWrites(world: World)
    ensures NamesWrites(Processing(world))
  {
    forall ns | Processing(world)(ns).Ok? ensures Written(Processing(world)(ns).value) == Str(ns) {
      assert WellShaped(ProcessNamespace(ns, world).value.data, ns);
    }
  }

  /** The whole run over `world`, starting with nothing claimed and nothing written. */
  function Discover(components: seq<Component>, world: World): (r: Run)
    ensures Consistent(r, Processing(world))
  {
    assert Consistent(Run([], []), Processing(world));
    ProcessComponents(components, Processing(world), Run([], []))
  }

  /** Deduplication: across a run every namespace is written at most once,
      only claimed namespaces are written, and no namespace is claimed twice. */
  lemma AtMostOnce(components: seq<Component>, world: World)
    ensures var run := Discover(components, world);
      && NoDuplicates(run.claimed)
      && (forall i :: 0 <= i < |run.trace| ==> Written(run.trace[i]).Str? && Written(run.trace[i]).s in run.claimed)
      && (forall i, i' :: 0 <= i < i' < |run.trace| ==> Written(run.trace[i]) != Written(run.trace[i']))
  {
    ProcessingNamesWrites(world);
    UpsertsNamed(Discover(components, world).claimed, Processing(world));
  }

  /** Always upsert: every claimed namespace whose processing succeeds is
      written exactly once, by an add when the catalogue has no truthy id for
      it and by an update of that id otherwise. */
  lemma ExactlyOnce(components: seq<Component>, world: World, ns: string)
    requires ns in Discover(components, world).claimed
    requires ProcessNamespace(ns, world).Ok?
    ensures var run := Discover(components, world);
      exists i :: 0 <= i < |run.trace| && run.trace[i] == ProcessNamespace(ns, world).value
        && Written(run.trace[i]) == Str(ns)
        && (run.trace[i].Add? <==> !Truthy(CatalogueId(world, ns)))
  {
    var run := Discover(components, world);
    UpsertsContain(run.claimed, Processing(world), ns);
    var e := ProcessNamespace(ns, world).value;
    assert WellShaped(e.data, ns);
    var i :| 0 <= i < |run.trace| && run.trace[i] == e;
  }

  /** Every namespace the run reaches is written exactly once: the walk of
      component `i` gets to environment `j`, and processing it succeeds. */
  lemma ReachedWritten(cs: seq<Component>, world: World, i: nat, j: nat)
    requires i < |cs| && forall k :: 0 <= k < i ==> cs[k].name.Some?
    requires cs[i].environments.Some? && j < |cs[i].environments.value|
    requires forall k :: 0 <= k < j ==> Passes(cs[i].environments.value[k], Processing(world))
    requires cs[i].environments.value[j].name.Some?
    requires ProcessNamespace(cs[i].environments.value[j].namespace, world).Ok?
    ensures var run := Discover(cs, world);
      var ns := cs[i].environments.value[j].namespace;
      exists t :: 0 <= t < |run.trace| && run.trace[t] == ProcessNamespace(ns, world).value
        && Written(run.trace[t]) == Str(ns)
        && (run.trace[t].Add? <==> !Truthy(CatalogueId(world, ns)))
  {
    ComponentsClaim(cs, Processing(world), Run([], []), i, j);
    ExactlyOnce(cs, world, cs[i].environments.value[j].namespace);
  }
}

=== FILE: module_version.dfy ===
/** The Terraform module version pinned in a module's `source`, as the job
    reads it with the pattern `(?<=[\\?]ref=)[0-9]+(\.[0-9])?(\.[0-9])?$`
    under Python's `re.search`. No regex engine is modelled: `ExtractVersion`
    is a direct scan, and `RegexMatch` states the pattern's meaning so that
    the two can be proved to agree. */
module ModuleVersion {
  import opened Text
  import opened Values

  /** `\.[0-9]`: a dot followed by exactly one digit. */
  predicate DottedDigit(t: string) {
    |t| == 2 && t[0] == '.' && IsDigit(t[1])
  }

  /** `(\.[0-9])?(\.[0-9])?`: none, one or two dotted single digits. */
  predicate DottedTail(t: string) {
    t == [] || DottedDigit(t) || (|t| == 4 && DottedDigit(t[..2]) && DottedDigit(t[2..]))
  }

  /** The digits `v[..k]` are the `[0-9]+` part and the rest is the dotted tail. */
  predicate SplitAt(v: string, k: nat) {
    1 <= k <= |v| && AllDigits(v[..k]) && DottedTail(v[k..])
  }

  /** `v` is in the language of `[0-9]+(\.[0-9])?(\.[0-9])?`. */
  ghost predicate VersionShape(v: string) {
    exists k: nat :: SplitAt(v, k)
  }

  /** The look-behind `(?<=[\\?]ref=)` holds at position `p`: the five characters
      before it are a backslash or question mark followed by `ref=`. */
  predicate Marker(s: string, p: nat) {
    5 <= p <= |s| && (s[p - 5] == '\\' || s[p - 5] == '?') && s[p - 4..p] == "ref="
  }

  /** Where Python's `$` may match: at the very end, or just before a final newline. */
  predicate DollarAt(s: string, e: nat) {
    e == |s| || (e + 1 == |s| && s[e] == '\n')
  }

  /** The pattern matches `s[p..e]`. */
  ghost predicate RegexMatch(s: string, p: nat, e: nat) {
    p <= e <= |s| && DollarAt(s, e) && Marker(s, p) && VersionShape(s[p..e])
  }

  /** A direct test of `VersionShape`: peel up to two trailing dotted digits
      off the end and ask for a non-empty run of digits before them. */
  function IsVersion(v: string): (b: bool)
    ensures b <==> VersionShape(v)
  {
    var n := |v|;
    if 1 <= n && AllDigits(v) then
      assert SplitAt(v, n) by { assert v[..n] == v; }
      true
    else if 3 <= n && DottedDigit(v[n - 2..]) && AllDigits(v[..n - 2]) then
      assert SplitAt(v, n - 2);
      true
    else if 5 <= n && DottedDigit(v[n - 2..]) && DottedDigit(v[n - 4..n - 2]) && AllDigits(v[..n - 4]) then
      assert v[n - 4..][..2] == v[n - 4..n - 2] && v[n - 4..][2..] == v[n - 2..];
      assert SplitAt(v, n - 4);
      true
    else
      assert !VersionShape(v) by {
        if VersionShape(v) {
          ShapeCases(v);
        }
      }
      false
  }

  /** Every version ends in a digit and holds no `=`. */
  lemma VersionCharacters(v: string)
    requires VersionShape(v)
    ensures |v| >= 1 && IsDigit(v[|v| - 1])
    ensures forall j :: 0 <= j < |v| ==> v[j] != '='
  {
    var k: nat :| SplitAt(v, k);
    forall j | 0 <= j < |v| ensures v[j] != '=' {
      if j < k {
        assert v[..k][j] == v[j];
      } else {
        assert v[k..][j - k] == v[j];
      }
    }
    if k < |v| {
      assert v[k..][|v| - k - 1] == v[|v| - 1];
    } else {
      assert v[..k][k - 1] == v[|v| - 1];
    }
  }

  function LastIndexOf(s: string, c: char): (r: Option<nat>)
    ensures r.Some? ==> r.value < |s| && s[r.value] == c && forall j :: r.value < j < |s| ==> s[j] != c
    ensures r.None? ==> forall j :: 0 <= j < |s| ==> s[j] != c
  {
    if s == [] then None
    else if s[|s| - 1] == c then Some(|s| - 1)
    else LastIndexOf(s[..|s| - 1], c)
  }

  /** The only position `$` can match at in front of a version: a final newline is skipped. */
  function AnchorEnd(s: string): nat {
    if |s| > 0 && s[|s| - 1] == '\n' then |s| - 1 else |s|
  }

  /** The text after the last `=` of `source` (a final newline aside) when
      that `=` closes a `?ref=` or `\ref=` marker and the text has the
      version shape; otherwise the empty string. */
  function Candidate(source: string): string {
    var body := source[..AnchorEnd(source)];
    match LastIndexOf(body, '=')
    case None => ""
    case Some(q) => if Marker(source, q + 1) && IsVersion(body[q + 1..]) then body[q + 1..] else ""
  }

  /** terraform_discovery.py:80-85. What `re.search` finds, or the empty
      string the source keeps when it finds nothing. */
  function ExtractVersion(source: string): (r: string)
    ensures r != "" <==> exists p: nat, e: nat :: RegexMatch(source, p, e)
    ensures forall p: nat, e: nat :: RegexMatch(source, p, e) ==> r == source[p..e]
    ensures r != "" ==> VersionShape(r)
  {
    CandidateMatches(source);
    MatchesAreCandidate(source);
    Candidate(source)
  }

  /** A non-empty candidate is a match of the pattern. */
  lemma CandidateMatches(source: string)
    ensures Candidate(source) != "" ==>
      exists p: nat :: RegexMatch(source, p, AnchorEnd(source)) && Candidate(source) == source[p..AnchorEnd(source)]
  {
    var e := AnchorEnd(source);
    var body := source[..e];
    if Candidate(source) != "" {
      var q := LastIndexOf(body, '=').value;
      assert body[q + 1..] == source[q + 1..e];
      assert RegexMatch(source, q + 1, e);
    }
  }

  /** Every match of the pattern is the candidate. */
  lemma MatchesAreCandidate(source: string)
    ensures forall p: nat, e: nat :: RegexMatch(source, p, e) ==> Candidate(source) == source[p..e]
  {
    forall p: nat, e: nat | RegexMatch(source, p, e) ensures Candidate(source) == source[p..e] {
      MatchPinned(source, p, e);
      var body := source[..e];
      assert body[p..] == source[p..e];
      assert IsVersion(source[p..e]);
    }
  }

  /** A match can only end at `AnchorEnd`, and it starts right after the last `=`. */
  lemma MatchPinned(s: string, p: nat, e: nat)
    requires RegexMatch(s, p, e)
    ensures e == AnchorEnd(s)
    ensures LastIndexOf(s[..e], '=') == Some(p - 1)
  {
    var v := s[p..e];
    VersionCharacters(v);
    assert s[e - 1] == v[|v| - 1];
    var body := s[..e];
    assert body[p - 1] == s[p - 4..p][3] == '=';
    forall j | p - 1 < j < |body| ensures body[j] != '=' {
      assert body[j] == v[j - p];
    }
    match LastIndexOf(body, '=')
    case None =>
    case Some(q) =>
  }

  /** The three ways a string can have the version shape. */
  lemma ShapeCases(v: string)
    requires VersionShape(v)
    ensures var n := |v|;
      || (1 <= n && AllDigits(v))
      || (3 <= n && DottedDigit(v[n - 2..]) && AllDigits(v[..n - 2]))
      || (5 <= n && DottedDigit(v[n - 2..]) && DottedDigit(v[n - 4..n - 2]) && AllDigits(v[..n - 4]))
  {
    var n := |v|;
    var k: nat :| SplitAt(v, k);
    var t := v[k..];
    if t == [] {
      assert v[..k] == v;
    } else if DottedDigit(t) {
      assert k == n - 2 && v[n - 2..] == t;
    } else {
      assert k == n - 4 && v[n - 2..] == t[2..] && v[n - 4..n - 2] == t[..2];
    }
  }

  lemma ExamplePinnedVersion()
    ensures ExtractVersion("rds?ref=5.2.1") == "5.2.1"
  {
    var s := "rds?ref=5.2.1";
    assert s[8..13] == "5.2.1";
    assert SplitAt(s[8..13], 1) by {
      assert s[8..13][1..] == ".2.1";
      assert ".2.1"[..2] == ".2" && ".2.1"[2..] == ".1";
    }
    assert RegexMatch(s, 8, 13);
  }

  lemma ExampleTrailingNewline()
    ensures ExtractVersion("rds\\ref=7\n") == "7"
  {
    var s := "rds\\ref=7\n";
    assert s[8..9] == "7";
    assert SplitAt(s[8..9], 1);
    assert RegexMatch(s, 8, 9);
  }

  lemma ExampleTwoDigitMinor()
    ensures ExtractVersion("rds?ref=5.12.1") == ""
  {
    var s := "rds?ref=5.12.1";
    assert AnchorEnd(s) == 14 && s[..14] == s;
    assert LastIndexOf(s, '=') == Some(7) by {
      assert s[7] == '=';
    }
    assert s[8..] == "5.12.1";
    assert !IsVersion("5.12.1") by {
      var v := "5.12.1";
      assert !AllDigits(v) by { assert !IsDigit(v[1]); }
      assert !AllDigits(v[..4]) by { assert !IsDigit(v[..4][1]); }
      assert !DottedDigit(v[2..4]) by { assert v[2..4][0] == '1'; }
    }
  }

  lemma ExampleNoRef()
    ensures ExtractVersion("git::github.com/org/module") == ""
  {
    var s := "git::github.com/org/module";
    assert LastIndexOf(s[..AnchorEnd(s)], '=') == None;
  }
}

=== FILE: namespace.dfy ===
/** One namespace: the record `process_repo` builds for it from the parsed
    Terraform of its resources directory, and the catalogue write that
    follows (terraform_discovery.py:37-44, 60-215). */
module Namespace {
  import opened Values
  import opened ModuleVersion
  import opened Records

  /** The parser's output for one resources directory: each top-level block
      type (`module`, `pingdom_check`, ...) with the objects parsed for it. */
  type Parsed = map<string, seq<Attrs>>

  /** A write to the catalogue's namespace collection. */
  datatype Event = Add(data: Attrs) | Update(id: Value, data: Attrs)

  /** What the job reads from outside: the catalogue's namespace records by
      name, and the parse of each namespace's resources directory, present
      exactly for the namespaces whose directory exists. */
  datatype World = World(catalogue: map<string, Attrs>, resources: map<string, Parsed>)

  /** The catalogue record of a namespace; an absent one reads as empty. */
  function CatalogueRecord(world: World, ns: string): Attrs {
    if ns in world.catalogue then world.catalogue[ns] else map[]
  }

  /** `sc_namespace_data.get('id')`, or None without a record (an empty
      record is falsy and reads the same as none). */
  function CatalogueId(world: World, ns: string): (r: Value)
    ensures ns in world.catalogue && "id" in world.catalogue[ns] ==> r == world.catalogue[ns]["id"]
    ensures ns !in world.catalogue || "id" !in world.catalogue[ns] ==> r == Null
  {
    var rec := CatalogueRecord(world, ns);
    if "id" in rec then rec["id"] else Null
  }

  /** `sc_namespace_data.get('attributes', {})`, or `{}` without a record. */
  function CatalogueAttributes(world: World, ns: string): (r: Value)
    ensures ns in world.catalogue && "attributes" in world.catalogue[ns] ==> r == world.catalogue[ns]["attributes"]
    ensures ns !in world.catalogue || "attributes" !in world.catalogue[ns] ==> r == Dict(map[])
  {
    var rec := CatalogueRecord(world, ns);
    if "attributes" in rec then rec["attributes"] else Dict(map[])
  }

  /** update_sc_namespace (lines 37-44): a falsy id means the namespace is new. */
  function Upsert(id: Value, data: Attrs): (e: Event)
    ensures e.data == data
    ensures e.Add? <==> !Truthy(id)
    ensures e.Update? ==> e.id == id
  {
    if !Truthy(id) then Add(data) else Update(id, data)
  }

  /** The record under construction, and the parsed pingdom checks, which the
      loop rewrites in place as it consumes them. */
  datatype Scan = Scan(data: Attrs, checks: seq<Attrs>)

  const ResourceKeys: set<string> := {"rds_instance", "elasticache_cluster", "pingdom_check"}

  /** `name` is the namespace, and the record is `Shaped`. */
  predicate WellShaped(data: Attrs, ns: string) {
    "name" in data && data["name"] == Str(ns) && Shaped(data)
  }

  predicate Single(v: Value) {
    v.List? && |v.items| == 1 && v.items[0].Dict? && "__tfmeta" !in v.items[0].fields
  }

  /** Record `rec` as the only element under its kind's key, replacing what was there. */
  function Put(data: Attrs, kind: Kind, rec: Attrs): Attrs {
    data[kind.Key() := List([Dict(rec)])]
  }

  /** The pingdom check is `http` and still carries parser metadata. */
  predicate Pending(r: Attrs) {
    "type" in r && In("http", r["type"]) == Ok(true) && "__tfmeta" in r
  }

  /** A check the pass can test without raising. */
  predicate TypeReadable(r: Attrs) {
    "type" in r && In("http", r["type"]).Ok?
  }

  /** What one check becomes in a pass: a pending check turns into its
      record, any other check stays as it is. */
  function Consume(r: Attrs, sc: Value): Result<Attrs> {
    if Pending(r) then Normalize(PingdomCheck, r, "", sc) else Ok(r)
  }

  /** The last pending check, the one whose record the pass keeps. */
  function LastPending(checks: seq<Attrs>): (r: Option<nat>)
    ensures r.Some? ==>
      r.value < |checks| && Pending(checks[r.value]) && forall j :: r.value < j < |checks| ==> !Pending(checks[j])
    ensures r.None? ==> forall j :: 0 <= j < |checks| ==> !Pending(checks[j])
  {
    if checks == [] then None
    else if Pending(checks[|checks| - 1]) then Some(|checks| - 1)
    else LastPending(checks[..|checks| - 1])
  }

  /** The checks after a pass over them (lines 175-211): each one replaced
      by what it consumes to. The pass raises at the first check whose `type`
      is missing or does not support `in`, or whose conversion raises. */
  function ConsumeAll(checks: seq<Attrs>, sc: Value): (r: Result<seq<Attrs>>)
    ensures r.Ok? <==> forall i :: 0 <= i < |checks| ==>
      (TypeReadable(checks[i]) && Consume(checks[i], sc).Ok?)
    ensures r.Ok? ==>
      |r.value| == |checks| && forall i :: 0 <= i < |checks| ==> Consume(checks[i], sc) == Ok(r.value[i])
    decreases |checks|
  {
    if checks == [] then Ok([])
    else
      var t :- Get(checks[0], "type");
      var http :- In("http", t);
      var rec :- Consume(checks[0], sc);
      var rest :- ConsumeAll(checks[1..], sc);
      assert forall i :: 1 <= i < |checks| ==> checks[i] == checks[1..][i - 1];
      Ok([rec] + rest)
  }

  /** The namespace record after a pass (line 212): the record of each
      pending check in turn replaces the `pingdom_check` entry, so the last
      one stays. */
  function PassData(checks: seq<Attrs>, out: seq<Attrs>, data: Attrs): (d: Attrs)
    requires |out| == |checks|
    ensures d == match LastPending(checks)
      case None => data
      case Some(i) => Put(data, PingdomCheck, out[i])
    decreases |checks|
  {
    if checks == [] then data
    else
      var data' := if Pending(checks[0]) then Put(data, PingdomCheck, out[0]) else data;
      var d := PassData(checks[1..], out[1..], data');
      PassKeepsLast(checks, data, data', out, d);
      d
  }

  /** One pass over the pingdom checks (lines 174-212): every pending check
      becomes a record and replaces itself in the list, and the record of the
      last pending one is the namespace's only `pingdom_check`. A raise
      discards the namespace record, so the checks can be rewritten before
      the record is updated. */
  function PingdomPass(checks: seq<Attrs>, data: Attrs, sc: Value): (r: Result<Scan>)
    ensures r.Ok? <==> forall i :: 0 <= i < |checks| ==>
      (TypeReadable(checks[i]) && Consume(checks[i], sc).Ok?)
    ensures r.Ok? ==>
      |r.value.checks| == |checks| && forall i :: 0 <= i < |checks| ==> Consume(checks[i], sc) == Ok(r.value.checks[i])
    ensures r.Ok? ==>
      r.value.data == match LastPending(checks)
        case None => data
        case Some(i) => Put(data, PingdomCheck, r.value.checks[i])
  {
    var out :- ConsumeAll(checks, sc);
    Ok(Scan(PassData(checks, out, data), out))
  }

  /** The step of `PingdomPass` for its data: the head's record is
      overwritten exactly when the tail holds a later pending check. */
  lemma PassKeepsLast(checks: seq<Attrs>, data: Attrs, data': Attrs, out: seq<Attrs>, restData: Attrs)
    requires checks != [] && |out| == |checks|
    requires data' == if Pending(checks[0]) then Put(data, PingdomCheck, out[0]) else data
    requires restData == match LastPending(checks[1..])
      case None => data'
      case Some(i) => Put(data', PingdomCheck, out[1..][i])
    ensures restData == match LastPending(checks)
      case None => data
      case Some(i) => Put(data, PingdomCheck, out[i])
  {
    LastPendingCons(checks);
    if LastPending(checks[1..]).Some? {
      var i := LastPending(checks[1..]).value;
      assert out[1..][i] == out[i + 1];
      PutOverwrites(data, data', PingdomCheck, out[i + 1]);
    }
  }

  lemma PutOverwrites(data: Attrs, data': Attrs, kind: Kind, rec: Attrs)
    requires data' == data || exists other :: data' == Put(data, kind, other)
    ensures Put(data', kind, rec) == Put(data, kind, rec)
  {
  }

  /** The last pending check of a list is the last one of its tail, or its head. */
  lemma LastPendingCons(checks: seq<Attrs>)
    requires checks != []
    ensures LastPending(checks) ==
      match LastPending(checks[1..])
      case Some(i) => Some(i + 1)
      case None => if Pending(checks[0]) then Some(0) else None
  {
    assert forall i :: 1 <= i < |checks| ==> checks[i] == checks[1..][i - 1];
  }

  /** No key but `name` and the resource keys, and each resource key present
      holds a one-element list of a record without parser metadata. */
  predicate Shaped(data: Attrs) {
    && data.Keys <= {"name"} + ResourceKeys
    && forall k :: k in data && k != "name" ==> Single(data[k])
  }

  /** No check is pending any more, and every check's type supports `in`. */
  predicate Settled(checks: seq<Attrs>) {
    forall i :: 0 <= i < |checks| ==> TypeReadable(checks[i]) && !Pending(checks[i])
  }

  /** A consumed check is no longer pending and its type is unchanged. */
  lemma ConsumeSettles(c: Attrs, sc: Value)
    requires TypeReadable(c) && Consume(c, sc).Ok?
    ensures TypeReadable(Consume(c, sc).value) && !Pending(Consume(c, sc).value)
  {
    if Pending(c) {
      assert Kept(c, Consume(c, sc).value, "type");
    }
  }

  /** A pass over settled checks changes nothing. */
  lemma PassOverSettled(checks: seq<Attrs>, data: Attrs, sc: Value)
    requires Settled(checks)
    ensures PingdomPass(checks, data, sc) == Ok(Scan(data, checks))
  {
    var r := PingdomPass(checks, data, sc);
    assert r.Ok?;
    assert r.value.checks == checks;
  }

  /** A successful pass leaves every check settled. */
  lemma PassSettles(checks: seq<Attrs>, data: Attrs, sc: Value)
    requires PingdomPass(checks, data, sc).Ok?
    ensures Settled(PingdomPass(checks, data, sc).value.checks)
  {
    var out := PingdomPass(checks, data, sc).value.checks;
    forall i | 0 <= i < |checks| ensures TypeReadable(out[i]) && !Pending(out[i]) {
      ConsumeSettles(checks[i], sc);
    }
  }

  /** The pass is idempotent: running it again over its own output changes nothing. */
  lemma PingdomPassIdempotent(checks: seq<Attrs>, data: Attrs, sc: Value)
    requires PingdomPass(checks, data, sc).Ok?
    ensures var s := PingdomPass(checks, data, sc).value;
      PingdomPass(s.checks, s.data, sc) == Ok(s)
  {
    var s := PingdomPass(checks, data, sc).value;
    PassSettles(checks, data, sc);
    PassOverSettled(s.checks, s.data, sc);
  }

  /** The module version the loop computes (lines 80-85): `re.search` on a
      source that is not a string raises a TypeError, which is caught. */
  function SourceVersion(source: Value): (r: string)
    ensures r != "" <==> source.Str? && exists p: nat, e: nat :: RegexMatch(source.s, p, e)
    ensures source.Str? ==> forall p: nat, e: nat :: RegexMatch(source.s, p, e) ==> r == source.s[p..e]
  {
    if source.Str? then ExtractVersion(source.s) else ""
  }

  /** The module's source contains the marker (only meaningful on strings). */
  predicate Marks(m: Attrs, marker: string) {
    "source" in m && In(marker, m["source"]) == Ok(true)
  }

  /** The module and the record under construction after one branch. */
  datatype Step = Step(current: Attrs, data: Attrs)

  /** One of the two module branches (lines 88-125 and 128-172): when the
      module's source holds the kind's marker, the module is rewritten into
      its record in place, and that record becomes the kind's only entry. */
  function Branch(kind: Kind, marker: string, m: Attrs, data: Attrs, version: string, sc: Value): (r: Result<Step>)
    ensures r.Raise? <==>
      "source" !in m || In(marker, m["source"]).Raise? || (Marks(m, marker) && Normalize(kind, m, version, sc).Raise?)
    ensures r.Ok? && !Marks(m, marker) ==> r.value == Step(m, data)
    ensures r.Ok? && Marks(m, marker) ==>
      r.value == Step(Normalize(kind, m, version, sc).value, Put(data, kind, Normalize(kind, m, version, sc).value))
  {
    var source :- Get(m, "source");
    var hit :- In(marker, source);
    if hit then
      var rec :- Normalize(kind, m, version, sc);
      Ok(Step(rec, Put(data, kind, rec)))
    else
      Ok(Step(m, data))
  }

  /** The RDS branch, then the elasticache branch on the possibly rewritten
      module (lines 88-172). Only the two module keys of the record change,
      and the one-record-per-key shape survives. */
  function Branches(m: Attrs, data: Attrs, version: string, sc: Value): (r: Result<Step>)
    ensures r.Ok? ==> "source" in m
    ensures r.Ok? ==> forall k :: k != "rds_instance" && k != "elasticache_cluster" ==> Kept(data, r.value.data, k)
    ensures r.Ok? && Shaped(data) ==> Shaped(r.value.data)
  {
    var rds :- Branch(RdsInstance, RdsSource, m, data, version, sc);
    var cache :- Branch(ElasticacheCluster, ElasticacheSource, rds.current, rds.data, version, sc);
    BranchKeepsShape(RdsInstance, RdsSource, m, data, version, sc);
    BranchKeepsShape(ElasticacheCluster, ElasticacheSource, rds.current, rds.data, version, sc);
    Ok(cache)
  }

  /** One iteration of the module loop (lines 78-212): the version, the RDS
      branch, the elasticache branch on the possibly rewritten module, then,
      when the parse holds pingdom checks, a pass over them. */
  function ProcessModule(m: Attrs, s: Scan, sc: Value, hasChecks: bool): (r: Result<Scan>)
    // `m['source']` sits outside the `try` that only catches TypeError
    ensures "source" !in m ==> r == Raise(KeyError)
    // without pingdom checks in the parse, the checks are not touched
    ensures r.Ok? && !hasChecks ==> r.value.checks == s.checks
  {
    var source :- Get(m, "source");
    var version := SourceVersion(source);
    var step :- Branches(m, s.data, version, sc);
    if hasChecks then PingdomPass(s.checks, step.data, sc) else Ok(Scan(step.data, s.checks))
  }

  /** The source marker that selects modules of a kind. */
  function MarkerOf(kind: Kind): string
    requires !kind.PingdomCheck?
  {
    if kind.RdsInstance? then RdsSource else ElasticacheSource
  }

  /** The record a marked module contributes. */
  function RecordOf(kind: Kind, m: Attrs, sc: Value): Result<Attrs>
    requires "source" in m
  {
    Normalize(kind, m, SourceVersion(m["source"]), sc)
  }

  /** A module whose source names both the RDS and the elasticache module
      loses its metadata in the RDS branch, so the elasticache branch raises. */
  lemma BothMarkersRaise(m: Attrs, s: Scan, sc: Value, hasChecks: bool)
    requires Marks(m, RdsSource) && Marks(m, ElasticacheSource)
    ensures ProcessModule(m, s, sc, hasChecks).Raise?
  {
    BothMarkersFail(m, s.data, SourceVersion(m["source"]), sc);
  }

  lemma BothMarkersFail(m: Attrs, data: Attrs, version: string, sc: Value)
    requires Marks(m, RdsSource) && Marks(m, ElasticacheSource)
    ensures Branches(m, data, version, sc).Raise?
  {
    var rds := Branch(RdsInstance, RdsSource, m, data, version, sc);
    if rds.Ok? {
      var rec := rds.value.current;
      assert Kept(m, rec, "source") && "__tfmeta" !in rec;
      assert Normalize(ElasticacheCluster, rec, version, sc).Raise?;
    }
  }

  lemma PutKeepsShape(data: Attrs, kind: Kind, rec: Attrs)
    requires "__tfmeta" !in rec
    ensures Kept(data, Put(data, kind, rec), "name")
    ensures Shaped(data) ==> Shaped(Put(data, kind, rec))
  {
  }

  /** A successful branch keeps the name and the shape. */
  lemma BranchKeepsShape(kind: Kind, marker: string, m: Attrs, data: Attrs, version: string, sc: Value)
    requires Branch(kind, marker, m, data, version, sc).Ok?
    ensures var out := Branch(kind, marker, m, data, version, sc).value.data;
      Kept(data, out, "name") && (Shaped(data) ==> Shaped(out))
  {
    if Marks(m, marker) {
      PutKeepsShape(data, kind, Normalize(kind, m, version, sc).value);
    }
  }

  /** A successful pass keeps the name and the shape. */
  lemma PassKeepsShape(checks: seq<Attrs>, data: Attrs, sc: Value)
    requires PingdomPass(checks, data, sc).Ok?
    ensures var out := PingdomPass(checks, data, sc).value.data;
      Kept(data, out, "name") && (Shaped(data) ==> Shaped(out))
  {
    var pass := PingdomPass(checks, data, sc).value;
    if LastPending(checks).Some? {
      var i := LastPending(checks).value;
      assert Consume(checks[i], sc) == Ok(pass.checks[i]);
      PutKeepsShape(data, PingdomCheck, pass.checks[i]);
    }
  }

  /** One successful module iteration keeps the name and the one-record-per-key shape. */
  lemma ModuleKeepsShape(m: Attrs, s: Scan, sc: Value, hasChecks: bool)
    requires ProcessModule(m, s, sc, hasChecks).Ok?
    ensures var out := ProcessModule(m, s, sc, hasChecks).value;
      Kept(s.data, out.data, "name") && (Shaped(s.data) ==> Shaped(out.data))
  {
    var step := Branches(m, s.data, SourceVersion(m["source"]), sc).value;
    assert Kept(s.data, step.data, "name");
    if hasChecks {
      assert ProcessModule(m, s, sc, hasChecks) == PingdomPass(s.checks, step.data, sc);
      PassKeepsShape(s.checks, step.data, sc);
    } else {
      assert ProcessModule(m, s, sc, hasChecks) == Ok(Scan(step.data, s.checks));
    }
  }

  /** A pass rewrites no key but `pingdom_check`. */
  lemma PassKeepsOthers(checks: seq<Attrs>, data: Attrs, sc: Value, k: string)
    requires PingdomPass(checks, data, sc).Ok? && k != "pingdom_check"
    ensures Kept(data, PingdomPass(checks, data, sc).value.data, k)
  {
  }

  /** One module iteration changes no key of the record but the three resource keys. */
  lemma ModuleKeepsOthers(m: Attrs, s: Scan, sc: Value, hasChecks: bool, k: string)
    requires ProcessModule(m, s, sc, hasChecks).Ok?
    requires k !in ResourceKeys
    ensures Kept(s.data, ProcessModule(m, s, sc, hasChecks).value.data, k)
  {
    var step := Branches(m, s.data, SourceVersion(m["source"]), sc).value;
    assert Kept(s.data, step.data, k);
    if hasChecks {
      PassKeepsOthers(s.checks, step.data, sc, k);
    }
  }

  /** What the two module branches (lines 88-172) do to an RDS or
      elasticache entry: a marked module's record replaces it, otherwise it
      is kept. */
  lemma BranchesRecord(kind: Kind, m: Attrs, data: Attrs, version: string, sc: Value)
    requires !kind.PingdomCheck?
    requires Branches(m, data, version, sc).Ok?
    ensures var out := Branches(m, data, version, sc).value.data;
      && (Marks(m, MarkerOf(kind)) ==>
            Normalize(kind, m, version, sc).Ok? && kind.Key() in out
            && out[kind.Key()] == List([Dict(Normalize(kind, m, version, sc).value)]))
      && (!Marks(m, MarkerOf(kind)) ==> Kept(data, out, kind.Key()))
  {
    if kind.RdsInstance? {
      RdsEntry(m, data, version, sc);
    } else {
      CacheEntry(m, data, version, sc);
    }
  }

  /** The RDS entry after the two branches: set by the RDS branch, left alone by the elasticache one. */
  lemma RdsEntry(m: Attrs, data: Attrs, version: string, sc: Value)
    requires Branches(m, data, version, sc).Ok?
    ensures var out := Branches(m, data, version, sc).value.data;
      && (Marks(m, RdsSource) ==>
            Normalize(RdsInstance, m, version, sc).Ok? && "rds_instance" in out
            && out["rds_instance"] == List([Dict(Normalize(RdsInstance, m, version, sc).value)]))
      && (!Marks(m, RdsSource) ==> Kept(data, out, "rds_instance"))
  {
    var rds := Branch(RdsInstance, RdsSource, m, data, version, sc).value;
    var cache := Branch(ElasticacheCluster, ElasticacheSource, rds.current, rds.data, version, sc).value;
    assert Kept(rds.data, cache.data, "rds_instance");
  }

  /** The elasticache entry after the two branches: a module marked for
      both never gets this far, so the elasticache branch sees the module
      as it came. */
  lemma CacheEntry(m: Attrs, data: Attrs, version: string, sc: Value)
    requires Branches(m, data, version, sc).Ok?
    ensures var out := Branches(m, data, version, sc).value.data;
      && (Marks(m, ElasticacheSource) ==>
            Normalize(ElasticacheCluster, m, version, sc).Ok? && "elasticache_cluster" in out
            && out["elasticache_cluster"] == List([Dict(Normalize(ElasticacheCluster, m, version, sc).value)]))
      && (!Marks(m, ElasticacheSource) ==> Kept(data, out, "elasticache_cluster"))
  {
    var rds := Branch(RdsInstance, RdsSource, m, data, version, sc).value;
    if Marks(m, RdsSource) && Marks(m, ElasticacheSource) {
      BothMarkersFail(m, data, version, sc);
    } else if Marks(m, RdsSource) {
      assert Kept(m, rds.current, "source");
    } else {
      assert rds == Step(m, data);
    }
  }

  /** What one successful module iteration does to an RDS or elasticache
      entry: a marked module's record replaces it, otherwise it is kept. */
  lemma ModuleRecord(kind: Kind, m: Attrs, s: Scan, sc: Value, hasChecks: bool)
    requires !kind.PingdomCheck?
    requires ProcessModule(m, s, sc, hasChecks).Ok?
    ensures var out := ProcessModule(m, s, sc, hasChecks).value;
      && (Marks(m, MarkerOf(kind)) ==>
            RecordOf(kind, m, sc).Ok? && kind.Key() in out.data
            && out.data[kind.Key()] == List([Dict(RecordOf(kind, m, sc).value)]))
      && (!Marks(m, MarkerOf(kind)) ==> Kept(s.data, out.data, kind.Key()))
  {
    var version := SourceVersion(m["source"]);
    var step := Branches(m, s.data, version, sc).value;
    BranchesRecord(kind, m, s.data, version, sc);
    if hasChecks {
      PassKeepsOthers(s.checks, step.data, sc, kind.Key());
    }
  }

  /** What one successful module iteration does to the pingdom checks: a
      pass consumes all of them, and once consumed neither they nor the
      namespace's `pingdom_check` entry change again. */
  lemma ModuleChecks(m: Attrs, s: Scan, sc: Value, hasChecks: bool)
    requires ProcessModule(m, s, sc, hasChecks).Ok?
    ensures var out := ProcessModule(m, s, sc, hasChecks).value;
      && (hasChecks ==> Settled(out.checks))
      && (Settled(s.checks) || !hasChecks ==> out.checks == s.checks && Kept(s.data, out.data, "pingdom_check"))
  {
    var step := Branches(m, s.data, SourceVersion(m["source"]), sc).value;
    assert Kept(s.data, step.data, "pingdom_check");
    if hasChecks {
      PassSettles(s.checks, step.data, sc);
      if Settled(s.checks) {
        PassOverSettled(s.checks, step.data, sc);
      }
    }
  }

  /** The module loop (line 78), a left fold of `ProcessModule`. */
  function ProcessModules(ms: seq<Attrs>, s: Scan, sc: Value, hasChecks: bool): (r: Result<Scan>)
    ensures r.Ok? ==> Kept(s.data, r.value.data, "name")
    ensures r.Ok? && Shaped(s.data) ==> Shaped(r.value.data)
    decreases |ms|
  {
    if ms == [] then Ok(s)
    else
      var before :- ProcessModules(ms[..|ms| - 1], s, sc, hasChecks);
      var after :- ProcessModule(ms[|ms| - 1], before, sc, hasChecks);
      ModuleKeepsShape(ms[|ms| - 1], before, sc, hasChecks);
      Ok(after)
  }

  /** The last module whose source holds the marker. */
  function LastMarked(ms: seq<Attrs>, marker: string): (r: Option<nat>)
    ensures r.Some? ==> r.value < |ms| && Marks(ms[r.value], marker)
    ensures r.Some? ==> forall j :: r.value < j < |ms| ==> !Marks(ms[j], marker)
    ensures r.None? ==> forall j :: 0 <= j < |ms| ==> !Marks(ms[j], marker)
  {
    if ms == [] then None
    else if Marks(ms[|ms| - 1], marker) then Some(|ms| - 1)
    else LastMarked(ms[..|ms| - 1], marker)
  }

  /** Last match wins (lines 125 and 172): after the loop, an RDS or
      elasticache entry is the record of the last module of that kind, and
      without such a module the entry is what it was before the loop. */
  lemma {:induction false} LastMatchWins(kind: Kind, ms: seq<Attrs>, s: Scan, sc: Value, hasChecks: bool)
    requires !kind.PingdomCheck?
    requires ProcessModules(ms, s, sc, hasChecks).Ok?
    ensures var out := ProcessModules(ms, s, sc, hasChecks).value;
      match LastMarked(ms, MarkerOf(kind))
      case None => Kept(s.data, out.data, kind.Key())
      case Some(i) =>
        && RecordOf(kind, ms[i], sc).Ok?
        && kind.Key() in out.data
        && out.data[kind.Key()] == List([Dict(RecordOf(kind, ms[i], sc).value)])
    decreases |ms|
  {
    if ms != [] {
      var front := ms[..|ms| - 1];
      var before := ProcessModules(front, s, sc, hasChecks).value;
      ModuleRecord(kind, ms[|ms| - 1], before, sc, hasChecks);
      if !Marks(ms[|ms| - 1], MarkerOf(kind)) {
        LastMatchWins(kind, front, s, sc, hasChecks);
        assert LastMarked(ms, MarkerOf(kind)) == LastMarked(front, MarkerOf(kind));
        if LastMarked(front, MarkerOf(kind)).Some? {
          var i := LastMarked(front, MarkerOf(kind)).value;
          assert front[i] == ms[i];
        }
      }
    }
  }

  /** Pingdom checks are taken by the first module's pass only (line 211
      deletes their metadata): after the whole loop the checks and the
      namespace's `pingdom_check` entry are what the first iteration left. */
  lemma {:induction false} ChecksTakenByFirstModule(ms: seq<Attrs>, s: Scan, sc: Value, hasChecks: bool)
    requires ms != [] && ProcessModules(ms, s, sc, hasChecks).Ok?
    ensures ProcessModule(ms[0], s, sc, hasChecks).Ok?
    ensures var first := ProcessModule(ms[0], s, sc, hasChecks).value;
      var out := ProcessModules(ms, s, sc, hasChecks).value;
      out.checks == first.checks && Kept(first.data, out.data, "pingdom_check")
    decreases |ms|
  {
    var front := ms[..|ms| - 1];
    if front == [] {
      assert ms == [ms[0]];
      assert ProcessModules(front, s, sc, hasChecks) == Ok(s);
    } else {
      ChecksTakenByFirstModule(front, s, sc, hasChecks);
      assert front[0] == ms[0];
      var first := ProcessModule(ms[0], s, sc, hasChecks).value;
      var before := ProcessModules(front, s, sc, hasChecks).value;
      ModuleChecks(ms[0], s, sc, hasChecks);
      ModuleChecks(ms[|ms| - 1], before, sc, hasChecks);
    }
  }

  /** process_repo's work for one namespace it has claimed (lines 60-71,
      214-215): the catalogue record is looked up by name, the record is
      built from the parse of the resources directory when it exists, and
      exactly one write follows. */
  function ProcessNamespace(ns: string, world: World): (r: Result<Event>)
    // the write is an update of the existing record when the catalogue id is truthy, an add otherwise
    ensures r.Ok? ==> r.value == Upsert(CatalogueId(world, ns), r.value.data)
    ensures r.Ok? ==> WellShaped(r.value.data, ns)
    // without a resources directory the record is just the name, and the write always happens
    ensures ns !in world.resources ==> r == Ok(Upsert(CatalogueId(world, ns), map["name" := Str(ns)]))
    // a parse without a module block raises at `parsed['module']`
    ensures ns in world.resources && "module" !in world.resources[ns] ==> r == Raise(KeyError)
    // with no modules the loop body never runs, so no pingdom check is taken either
    ensures ns in world.resources && "module" in world.resources[ns] && world.resources[ns]["module"] == [] ==>
      r == Ok(Upsert(CatalogueId(world, ns), map["name" := Str(ns)]))
  {
    var id := CatalogueId(world, ns);
    var sc := CatalogueAttributes(world, ns);
    var base := map["name" := Str(ns)];
    assert Shaped(base);
    if ns !in world.resources then Ok(Upsert(id, base))
    else
      var parsed := world.resources[ns];
      var modules :- if "module" in parsed then Ok(parsed["module"]) else Raise(KeyError);
      var hasChecks := "pingdom_check" in parsed;
      var checks := if hasChecks then parsed["pingdom_check"] else [];
      var s :- ProcessModules(modules, Scan(base, checks), sc, hasChecks);
      Ok(Upsert(id, s.data))
  }

  /** The `module` blocks of a namespace's parse, the list the module loop walks. */
  function Modules(ns: string, world: World): seq<Attrs>
    requires ns in world.resources && "module" in world.resources[ns]
  {
    world.resources[ns]["module"]
  }

  /** The record written for a namespace holds, for RDS and for elasticache,
      the record of the last module of that kind, and no entry without one. */
  lemma NamespaceRecord(ns: string, world: World, kind: Kind)
    requires !kind.PingdomCheck?
    requires ns in world.resources && "module" in world.resources[ns]
    requires ProcessNamespace(ns, world).Ok?
    ensures var data := ProcessNamespace(ns, world).value.data;
      var sc := CatalogueAttributes(world, ns);
      match LastMarked(Modules(ns, world), MarkerOf(kind))
      case None => kind.Key() !in data
      case Some(i) =>
        && RecordOf(kind, Modules(ns, world)[i], sc).Ok?
        && kind.Key() in data
        && data[kind.Key()] == List([Dict(RecordOf(kind, Modules(ns, world)[i], sc).value)])
  {
    var parsed := world.resources[ns];
    var hasChecks := "pingdom_check" in parsed;
    var checks := if hasChecks then parsed["pingdom_check"] else [];
    var s := Scan(map["name" := Str(ns)], checks);
    LastMatchWins(kind, Modules(ns, world), s, CatalogueAttributes(world, ns), hasChecks);
  }

  /** The record written for a namespace holds the record of the last
      pending pingdom check of the parse, as the first module's pass left it,
      and no `pingdom_check` entry when no check is pending. */
  lemma NamespaceChecks(ns: string, world: World)
    requires ns in world.resources && "module" in world.resources[ns]
    requires Modules(ns, world) != [] && "pingdom_check" in world.resources[ns]
    requires ProcessNamespace(ns, world).Ok?
    ensures var data := ProcessNamespace(ns, world).value.data;
      var sc := CatalogueAttributes(world, ns);
      var checks := world.resources[ns]["pingdom_check"];
      match LastPending(checks)
      case None => "pingdom_check" !in data
      case Some(i) =>
        && Consume(checks[i], sc).Ok?
        && "pingdom_check" in data
        && data["pingdom_check"] == List([Dict(Consume(checks[i], sc).value)])
  {
    var sc := CatalogueAttributes(world, ns);
    var checks := world.resources[ns]["pingdom_check"];
    var s := Scan(map["name" := Str(ns)], checks);
    ChecksTakenByFirstModule(Modules(ns, world), s, sc, true);
    FirstModuleTakesChecks(Modules(ns, world)[0], s, sc);
  }

  /** A module iteration over a record without a `pingdom_check` entry
      leaves the record of the last pending check there, or no entry. */
  lemma FirstModuleTakesChecks(m: Attrs, s: Scan, sc: Value)
    requires "pingdom_check" !in s.data
    requires ProcessModule(m, s, sc, true).Ok?
    ensures var data := ProcessModule(m, s, sc, true).value.data;
      match LastPending(s.checks)
      case None => "pingdom_check" !in data
      case Some(i) =>
        && Consume(s.checks[i], sc).Ok?
        && "pingdom_check" in data
        && data["pingdom_check"] == List([Dict(Consume(s.checks[i], sc).value)])
  {
    var step := Branches(m, s.data, SourceVersion(m["source"]), sc).value;
    assert Kept(s.data, step.data, "pingdom_check");
    assert ProcessModule(m, s, sc, true) == PingdomPass(s.checks, step.data, sc);
    var pass := PingdomPass(s.checks, step.data, sc).value;
    if LastPending(s.checks).Some? {
      var i := LastPending(s.checks).value;
      assert Consume(s.checks[i], sc) == Ok(pass.checks[i]);
    }
  }

  /** Without modules, or without pingdom checks in the parse, the record has no `pingdom_check` entry. */
  lemma NoChecksNoEntry(ns: string, world: World)
    requires ns in world.resources && "module" in world.resources[ns]
    requires Modules(ns, world) == [] || "pingdom_check" !in world.resources[ns]
    requires ProcessNamespace(ns, world).Ok?
    ensures "pingdom_check" !in ProcessNamespace(ns, world).value.data
  {
    var parsed := world.resources[ns];
    var sc := CatalogueAttributes(world, ns);
    var hasChecks := "pingdom_check" in parsed;
    var checks := if hasChecks then parsed["pingdom_check"] else [];
    var s := Scan(map["name" := Str(ns)], checks);
    NoPassNoEntry(Modules(ns, world), s, sc, hasChecks);
  }

  lemma {:induction false} NoPassNoEntry(ms: seq<Attrs>, s: Scan, sc: Value, hasChecks: bool)
    requires ms == [] || !hasChecks
    requires ProcessModules(ms, s, sc, hasChecks).Ok?
    ensures Kept(s.data, ProcessModules(ms, s, sc, hasChecks).value.data, "pingdom_check")
    decreases |ms|
  {
    if ms != [] {
      var front := ms[..|ms| - 1];
      NoPassNoEntry(front, s, sc, hasChecks);
      ModuleChecks(ms[|ms| - 1], ProcessModules(front, s, sc, hasChecks).value, sc, hasChecks);
    }
  }
}

=== FILE: records.dfy ===
/** The transformation of one parsed Terraform object (a module instance or
    a `pingdom_check` resource) into the record the catalogue stores for it
    (terraform_discovery.py:87-212). The three kinds share one shape: the
    parser's `id` goes, the `__tfmeta` block is copied into `tf_*` keys and
    then dropped, the id of an existing catalogue entry with the same
    `tf_path` is attached, and every other attribute is kept as it is. */
module Records {
  import opened Text
  import opened Values

  /** The module source markers that select RDS and elasticache modules. */
  const RdsSource := "cloud-platform-terraform-rds-instance"
  const ElasticacheSource := "cloud-platform-terraform-elasticache-cluster"

  datatype Kind = RdsInstance | ElasticacheCluster | PingdomCheck {
    /** The namespace record key that holds resources of this kind. */
    function Key(): string {
      match this
      case RdsInstance => "rds_instance"
      case ElasticacheCluster => "elasticache_cluster"
      case PingdomCheck => "pingdom_check"
    }

    /** Only the elasticache id lookup also swallows a KeyError. */
    predicate ToleratesKeyError() {
      ElasticacheCluster?
    }

    /** The attributes the transformation may add, drop or rewrite. */
    function Touched(): set<string> {
      match this
      case RdsInstance => Fixed + {"tf_mod_version", "db_max_allocated_storage"}
      case ElasticacheCluster => Fixed + {"tf_mod_version", "parameter_group_name"}
      case PingdomCheck => Fixed
    }
  }

  const MetaKeys: set<string> := {"label", "filename", "path", "line_start", "line_end"}
  const Fixed: set<string> := {"id", "__tfmeta", "tf_label", "tf_filename", "tf_path", "tf_line_start", "tf_line_end"}

  /** The parser metadata of one object, read as `r['__tfmeta'][...]`. */
  datatype Meta = Meta(blockLabel: Value, filename: Value, path: Value, lineStart: Value, lineEnd: Value)

  /** A readable metadata block: a dict with all five keys. */
  predicate HasMeta(r: Attrs) {
    "__tfmeta" in r && r["__tfmeta"].Dict? && MetaKeys <= r["__tfmeta"].fields.Keys
  }

  function ReadMeta(r: Attrs): (res: Result<Meta>)
    ensures res.Ok? <==> HasMeta(r)
    ensures res.Ok? ==> var f := r["__tfmeta"].fields;
      res.value == Meta(f["label"], f["filename"], f["path"], f["line_start"], f["line_end"])
  {
    if "__tfmeta" !in r then Raise(KeyError)
    else match r["__tfmeta"]
      case Dict(f) =>
        if MetaKeys <= f.Keys then Ok(Meta(f["label"], f["filename"], f["path"], f["line_start"], f["line_end"]))
        else Raise(KeyError)
      case _ => Raise(TypeError)
  }

  /** `rec` carries the five metadata values of `m` under their `tf_` names. */
  predicate CarriesMeta(rec: Attrs, m: Attrs)
    requires HasMeta(m)
  {
    Stamped(rec, ReadMeta(m).value)
  }

  /** Key `k` is present in `rec` exactly when it is in `m`, with the same value. */
  predicate Kept(m: Attrs, rec: Attrs, k: string) {
    (k in m <==> k in rec) && (k in m ==> rec[k] == m[k])
  }

  /** The five `tf_*` keys of `s` hold the metadata values. */
  predicate Stamped(s: Attrs, meta: Meta) {
    && "tf_label" in s && s["tf_label"] == meta.blockLabel
    && "tf_filename" in s && s["tf_filename"] == meta.filename
    && "tf_path" in s && s["tf_path"] == meta.path
    && "tf_line_start" in s && s["tf_line_start"] == meta.lineStart
    && "tf_line_end" in s && s["tf_line_end"] == meta.lineEnd
  }

  const TfKeys: set<string> := {"tf_label", "tf_filename", "tf_path", "tf_line_start", "tf_line_end"}

  function Stamp(r: Attrs, meta: Meta): (s: Attrs)
    ensures Stamped(s, meta)
    ensures forall k :: k !in TfKeys ==> Kept(r, s, k)
  {
    r["tf_label" := meta.blockLabel]["tf_filename" := meta.filename]["tf_path" := meta.path]
     ["tf_line_end" := meta.lineEnd]["tf_line_start" := meta.lineStart]
  }

  /** What `db_max_allocated_storage` becomes: the string form of an int
      (a bool included, as Python's `isinstance` counts it), anything else unchanged. */
  function StorageValue(v: Value): Value {
    if IsPyInt(v) then Str(PyIntToString(v)) else v
  }

  function CoerceStorage(r: Attrs): (s: Attrs)
    ensures forall k :: k != "db_max_allocated_storage" ==> Kept(r, s, k)
    ensures "db_max_allocated_storage" in r <==> "db_max_allocated_storage" in s
    ensures "db_max_allocated_storage" in r ==> s["db_max_allocated_storage"] == StorageValue(r["db_max_allocated_storage"])
  {
    if "db_max_allocated_storage" in r then r["db_max_allocated_storage" := StorageValue(r["db_max_allocated_storage"])]
    else r
  }

  /** The value a `parameter_group_name` resolves to: the `__name__` of a reference, a scalar as it is. */
  function ParameterGroupValue(v: Value): Value
    requires v.Dict? ==> "__name__" in v.fields
  {
    if v.Dict? then v.fields["__name__"] else v
  }

  /** A dict-valued `parameter_group_name` is a reference to another resource;
      its `__name__` replaces it, and a reference without one raises. */
  function ResolveParameterGroup(r: Attrs): (res: Result<Attrs>)
    ensures res.Raise? <==> DanglingParameterGroup(r)
    ensures res.Ok? ==> forall k :: k != "parameter_group_name" ==> Kept(r, res.value, k)
    ensures res.Ok? ==> ("parameter_group_name" in r <==> "parameter_group_name" in res.value)
    ensures res.Ok? && "parameter_group_name" in r ==>
      res.value["parameter_group_name"] == ParameterGroupValue(r["parameter_group_name"])
  {
    if "parameter_group_name" in r && r["parameter_group_name"].Dict? then
      var f := r["parameter_group_name"].fields;
      if "__name__" in f then Ok(r["parameter_group_name" := f["__name__"]]) else Raise(KeyError)
    else Ok(r)
  }

  /** A reference without a `__name__`: the one case where the elasticache rewrite raises. */
  predicate DanglingParameterGroup(m: Attrs) {
    "parameter_group_name" in m && m["parameter_group_name"].Dict? && "__name__" !in m["parameter_group_name"].fields
  }

  // ---------------------------------------------------------------------
  // Reuse of the ids of existing catalogue entries (lines 109-121, 155-168, 195-208)

  /** An existing entry the filter can read: a dict with a `tf_path`. */
  predicate Readable(v: Value) {
    v.Dict? && "tf_path" in v.fields
  }

  predicate MatchesPath(v: Value, path: Value) {
    Readable(v) && v.fields["tf_path"] == path
  }

  /** Entry `i` is the first one whose `tf_path` is `path`. */
  predicate FirstWithPath(entries: seq<Value>, path: Value, i: int) {
    0 <= i < |entries| && MatchesPath(entries[i], path) && forall j :: 0 <= j < i ==> !MatchesPath(entries[j], path)
  }

  /** The catalogue entries of one kind recorded for the namespace, when they form a list. */
  function Recorded(sc: Value, key: string): seq<Value> {
    if sc.Dict? && key in sc.fields && sc.fields[key].List? then sc.fields[key].items else []
  }

  /** The recorded value under `key` is something the source can iterate, or nothing at all. */
  predicate Iterable(sc: Value, key: string) {
    sc.Dict? && (key !in sc.fields || !Truthy(sc.fields[key]) || sc.fields[key].List?)
  }

  /** The exception `list(filter(lambda e: e['tf_path'] == path, entries))`
      raises: the first entry that is not a dict gives a TypeError, the first
      dict without `tf_path` a KeyError. */
  function FilterFault(entries: seq<Value>): (r: Option<Fault>)
    ensures r.None? <==> forall i :: 0 <= i < |entries| ==> Readable(entries[i])
    ensures (forall i :: 0 <= i < |entries| ==> entries[i].Dict?) ==> r.None? || r == Some(KeyError)
    ensures r.Some? ==> r.value != AttributeError
    // the fault is that of the first entry that is not a dict with `tf_path`
    ensures r.Some? ==>
      exists i :: (&& 0 <= i < |entries| && !Readable(entries[i])
                   && (forall j :: 0 <= j < i ==> Readable(entries[j]))
                   && r.value == (if entries[i].Dict? then KeyError else TypeError))
  {
    if entries == [] then None
    else if !entries[0].Dict? then Some(TypeError)
    else if "tf_path" !in entries[0].fields then Some(KeyError)
    else
      var r := FilterFault(entries[1..]);
      assert forall i :: 1 <= i < |entries| ==> entries[i] == entries[1..][i - 1];
      r
  }

  function FirstMatch(entries: seq<Value>, path: Value): (r: Option<nat>)
    ensures r.Some? ==> FirstWithPath(entries, path, r.value)
    ensures r.None? ==> forall i :: 0 <= i < |entries| ==> !MatchesPath(entries[i], path)
  {
    if entries == [] then None
    else if MatchesPath(entries[0], path) then Some(0)
    else
      match FirstMatch(entries[1..], path)
      case None => None
      case Some(i) =>
        assert forall j :: 1 <= j <= i + 1 ==> entries[j] == entries[1..][j - 1];
        Some(i + 1)
  }

  /** An exception raised inside the lookup's `try`: IndexError is caught for
      every kind (it never reaches here), KeyError only for elasticache. */
  function Caught(kind: Kind, f: Fault): Result<Option<Value>> {
    if f == KeyError && kind.ToleratesKeyError() then Ok(None) else Raise(f)
  }

  /** When the scan of the existing entries raises out of the lookup: an
      entry that is not a dict gives a TypeError, which no lookup catches;
      a dict without `tf_path`, or a first match without `id`, gives a
      KeyError, which only the elasticache lookup catches. */
  predicate LookupRaises(kind: Kind, entries: seq<Value>, path: Value) {
    || FilterFault(entries) == Some(TypeError)
    || (&& !kind.ToleratesKeyError()
        && (|| FilterFault(entries) == Some(KeyError)
            || (&& FilterFault(entries).None?
                && FirstMatch(entries, path).Some?
                && "id" !in entries[FirstMatch(entries, path).value].fields)))
  }

  /** The catalogue id to reuse for an object whose metadata path is `path`,
      given the namespace's existing catalogue attributes `sc`. */
  function LookupId(kind: Kind, sc: Value, path: Value): (r: Result<Option<Value>>)
    // an id is attached only after a scan of every existing entry, and it is
    // the id of the first entry with the same tf_path
    ensures r.Ok? && r.value.Some? ==>
      (forall j :: 0 <= j < |Recorded(sc, kind.Key())| ==> Readable(Recorded(sc, kind.Key())[j])) &&
      exists i :: FirstWithPath(Recorded(sc, kind.Key()), path, i)
        && "id" in Recorded(sc, kind.Key())[i].fields
        && r.value.value == Recorded(sc, kind.Key())[i].fields["id"]
    // and whenever such an entry carries an id, that id is attached
    ensures forall i ::
      (&& Iterable(sc, kind.Key()) && FirstWithPath(Recorded(sc, kind.Key()), path, i)
       && (forall j :: 0 <= j < |Recorded(sc, kind.Key())| ==> Readable(Recorded(sc, kind.Key())[j]))
       && "id" in Recorded(sc, kind.Key())[i].fields)
      ==> r == Ok(Some(Recorded(sc, kind.Key())[i].fields["id"]))
    // no entry with that path: no id, and no error
    ensures Iterable(sc, kind.Key())
      && (forall j :: 0 <= j < |Recorded(sc, kind.Key())| ==> Readable(Recorded(sc, kind.Key())[j]))
      && (forall j :: 0 <= j < |Recorded(sc, kind.Key())| ==> !MatchesPath(Recorded(sc, kind.Key())[j], path))
      ==> r == Ok(None)
    // the elasticache lookup never raises on entries that are dicts
    ensures kind.ToleratesKeyError() && Iterable(sc, kind.Key())
      && (forall j :: 0 <= j < |Recorded(sc, kind.Key())| ==> Recorded(sc, kind.Key())[j].Dict?)
      ==> r.Ok?
    // attributes that are not a dict, or a truthy non-list under the key, always raise
    ensures !Iterable(sc, kind.Key()) ==> r.Raise?
  {
    if !sc.Dict? then Raise(AttributeError)
    else
      var existing := if kind.Key() in sc.fields then sc.fields[kind.Key()] else Dict(map[]);
      if !Truthy(existing) then Ok(None)
      else if !existing.List? then Raise(TypeError)
      else
        var entries := existing.items;
        assert entries == Recorded(sc, kind.Key());
        match FilterFault(entries)
        case Some(f) => Caught(kind, f)
        case None =>
          match FirstMatch(entries, path)
          case None => Ok(None)
          case Some(i) =>
            if "id" in entries[i].fields then Ok(Some(entries[i].fields["id"])) else Caught(kind, KeyError)
  }

  /** The lookup raises exactly when the attributes cannot be iterated, on
      an entry that is not a dict, or, where KeyError is not caught, on a
      dict without `tf_path` or a first match without `id`. */
  lemma LookupIdRaises(kind: Kind, sc: Value, path: Value)
    ensures LookupId(kind, sc, path).Raise? <==>
      !Iterable(sc, kind.Key()) || LookupRaises(kind, Recorded(sc, kind.Key()), path)
  {
  }

  // ---------------------------------------------------------------------
  // The record transformation

  /** The id `LookupId` attaches to an object with metadata, when it attaches one. */
  predicate AttachesId(kind: Kind, sc: Value, m: Attrs, rec: Attrs)
    requires HasMeta(m)
  {
    var lookup := LookupId(kind, sc, m["__tfmeta"].fields["path"]);
    lookup.Ok? && ("id" in rec <==> lookup.value.Some?) && ("id" in rec ==> rec["id"] == lookup.value.value)
  }

  /** What the kind's own rewrite leaves in `rec` for object `m`: module
      records carry the version; an RDS record has its storage coerced; an
      elasticache record has its parameter group resolved (so the reference
      was not dangling); a pingdom check keeps whatever `tf_mod_version` it had. */
  predicate Rewritten(kind: Kind, m: Attrs, version: string, rec: Attrs) {
    match kind
    case RdsInstance =>
      && "tf_mod_version" in rec && rec["tf_mod_version"] == Str(version)
      && ("db_max_allocated_storage" in m <==> "db_max_allocated_storage" in rec)
      && ("db_max_allocated_storage" in m ==>
            rec["db_max_allocated_storage"] == StorageValue(m["db_max_allocated_storage"]))
    case ElasticacheCluster =>
      && "tf_mod_version" in rec && rec["tf_mod_version"] == Str(version)
      && !DanglingParameterGroup(m)
      && ("parameter_group_name" in m <==> "parameter_group_name" in rec)
      && ("parameter_group_name" in m ==>
            rec["parameter_group_name"] == ParameterGroupValue(m["parameter_group_name"]))
    case PingdomCheck =>
      Kept(m, rec, "tf_mod_version")
  }

  /** `m` without its parser id and metadata block, with the metadata stamped. */
  function Base(m: Attrs, meta: Meta): (s: Attrs)
    ensures "id" !in s && "__tfmeta" !in s && Stamped(s, meta)
    ensures forall k :: k !in Fixed ==> Kept(m, s, k)
  {
    var s := Stamp(m - {"id", "__tfmeta"}, meta);
    assert forall k :: k !in Fixed ==> Kept(m, s, k) by {
      forall k | k !in Fixed ensures Kept(m, s, k) {
        assert Kept(m - {"id", "__tfmeta"}, s, k);
      }
    }
    s
  }

  /** The RDS rewrite of a base record: storage coerced, version stamped. */
  function RdsRecord(m: Attrs, base: Attrs, version: string): (s: Attrs)
    requires forall k :: k !in Fixed ==> Kept(m, base, k)
    ensures Rewritten(RdsInstance, m, version, s)
    ensures forall k :: k !in RdsInstance.Touched() ==> Kept(m, s, k)
    ensures forall k :: k in TfKeys ==> Kept(base, s, k)
  {
    assert Kept(m, base, "db_max_allocated_storage");
    var c := CoerceStorage(base);
    assert forall k :: k !in Fixed && k != "db_max_allocated_storage" ==> Kept(m, c, k) by {
      forall k | k !in Fixed && k != "db_max_allocated_storage" ensures Kept(m, c, k) {
        assert Kept(base, c, k) && Kept(m, base, k);
      }
    }
    c["tf_mod_version" := Str(version)]
  }

  /** The elasticache rewrite of a base record: parameter group resolved,
      version stamped; a dangling reference raises. */
  function CacheRecord(m: Attrs, base: Attrs, version: string): (r: Result<Attrs>)
    requires forall k :: k !in Fixed ==> Kept(m, base, k)
    ensures r.Raise? <==> DanglingParameterGroup(m)
    ensures r.Ok? ==> Rewritten(ElasticacheCluster, m, version, r.value)
    ensures r.Ok? ==> forall k :: k !in ElasticacheCluster.Touched() ==> Kept(m, r.value, k)
    ensures r.Ok? ==> forall k :: k in TfKeys ==> Kept(base, r.value, k)
  {
    assert Kept(m, base, "parameter_group_name");
    var c :- ResolveParameterGroup(base);
    assert forall k :: k !in Fixed && k != "parameter_group_name" ==> Kept(m, c, k) by {
      forall k | k !in Fixed && k != "parameter_group_name" ensures Kept(m, c, k) {
        assert Kept(base, c, k) && Kept(m, base, k);
      }
    }
    Ok(c["tf_mod_version" := Str(version)])
  }

  /** The record before the id lookup: parser id and metadata block gone,
      metadata stamped, the kind's rewrite applied. */
  function Reshape(kind: Kind, m: Attrs, meta: Meta, version: string): (r: Result<Attrs>)
    ensures r.Raise? <==> kind.ElasticacheCluster? && DanglingParameterGroup(m)
    ensures r.Ok? ==> "id" !in r.value && "__tfmeta" !in r.value && Stamped(r.value, meta)
    ensures r.Ok? ==> Rewritten(kind, m, version, r.value)
    ensures r.Ok? ==> forall k :: k !in kind.Touched() ==> Kept(m, r.value, k)
  {
    var base := Base(m, meta);
    match kind
    case RdsInstance => Ok(RdsRecord(m, base, version))
    case ElasticacheCluster => CacheRecord(m, base, version)
    case PingdomCheck => Ok(base)
  }

  /** The catalogue record for object `m` of the given kind; `version` is the
      module version read from its source, and `sc` the namespace's existing
      catalogue attributes. */
  function Normalize(kind: Kind, m: Attrs, version: string, sc: Value): (r: Result<Attrs>)
    // it raises exactly when the parser id or metadata is missing, a parameter
    // group reference has no name, or the id lookup raises
    ensures r.Raise? <==>
      || "id" !in m
      || !HasMeta(m)
      || (kind.ElasticacheCluster? && DanglingParameterGroup(m))
      || LookupId(kind, sc, m["__tfmeta"].fields["path"]).Raise?
    ensures r.Ok? ==> HasMeta(m) && "__tfmeta" !in r.value
    ensures r.Ok? ==> CarriesMeta(r.value, m)
    ensures r.Ok? ==> AttachesId(kind, sc, m, r.value)
    ensures r.Ok? ==> Rewritten(kind, m, version, r.value)
    ensures r.Ok? ==> forall k :: k !in kind.Touched() ==> Kept(m, r.value, k)
  {
    if "id" !in m then Raise(KeyError)
    else
      var meta :- ReadMeta(m);
      var rec :- Reshape(kind, m, meta, version);
      var id :- LookupId(kind, sc, meta.path);
      var r := if id.Some? then rec["id" := id.value] else rec;
      assert forall k :: k != "id" ==> Kept(rec, r, k);
      Ok(r)
  }
}

=== FILE: text.dfy ===
/** Character-level helpers: decimal digits, Python's `str()` of an integer,
    and Python's substring test `needle in s`. */
module Text {

  predicate IsDigit(c: char) {
    '0' <= c <= '9'
  }

  predicate AllDigits(s: string) {
    forall i :: 0 <= i < |s| ==> IsDigit(s[i])
  }

  function DigitValue(c: char): nat
    requires IsDigit(c)
  {
    c as int - '0' as int
  }

  function DigitChar(d: nat): (c: char)
    requires d < 10
    ensures IsDigit(c) && DigitValue(c) == d
  {
    ('0' as int + d) as char
  }

  /** The number a run of decimal digits denotes, most significant digit first.
      This is the reference reading against which the renderings below are checked. */
  function DigitsValue(s: string): nat
    requires AllDigits(s)
  {
    if s == [] then 0 else 10 * DigitsValue(s[..|s| - 1]) + DigitValue(s[|s| - 1])
  }

  /** Python's `str(n)` for a non-negative integer: the canonical decimal
      rendering, without leading zeros. */
  function NatToString(n: nat): (r: string)
    ensures 1 <= |r| && AllDigits(r)
    ensures DigitsValue(r) == n
    ensures r[0] == '0' ==> r == "0"
  {
    if n < 10 then [DigitChar(n)]
    else
      var front := NatToString(n / 10);
      var r := front + [DigitChar(n % 10)];
      assert r[..|r| - 1] == front;
      r
  }

  function Abs(i: int): nat {
    if i < 0 then -i else i
  }

  /** Python's `str(i)` for any integer: a minus sign exactly for negative
      numbers, then the canonical digits of the magnitude. */
  function IntToString(i: int): (r: string)
    ensures 1 <= |r|
    ensures r[0] == '-' <==> i < 0
    ensures i < 0 ==> 2 <= |r| && AllDigits(r[1..]) && DigitsValue(r[1..]) == Abs(i)
    ensures i >= 0 ==> AllDigits(r) && DigitsValue(r) == i
    // canonical: no leading zero after the optional sign
    ensures i >= 0 && r[0] == '0' ==> r == "0"
    ensures i < 0 ==> r[1] != '0'
  {
    if i < 0 then
      var r := "-" + NatToString(-i);
      assert r[1..] == NatToString(-i);
      r
    else NatToString(i)
  }

  /** Two integers render alike only when they are equal. */
  lemma {:induction false} NatToStringInjective(a: nat, b: nat)
    requires NatToString(a) == NatToString(b)
    ensures a == b
  {
    assert DigitsValue(NatToString(a)) == a;
  }

  lemma IntToStringInjective(a: int, b: int)
    requires IntToString(a) == IntToString(b)
    ensures a == b
  {
    var r := IntToString(a);
    if a < 0 {
      assert DigitsValue(r[1..]) == -a == -b;
    } else {
      assert DigitsValue(r) == a == b;
    }
  }

  predicate OccursAt(s: string, needle: string, i: nat) {
    i + |needle| <= |s| && s[i..i + |needle|] == needle
  }

  /** Python's `needle in s` on two strings. */
  function Contains(s: string, needle: string): (b: bool)
    ensures b <==> exists i: nat :: OccursAt(s, needle, i)
    decreases |s|
  {
    if |s| < |needle| then
      assert forall i: nat :: !OccursAt(s, needle, i);
      false
    else if s[..|needle|] == needle then
      assert OccursAt(s, needle, 0);
      true
    else
      var b := Contains(s[1..], needle);
      assert forall i: nat :: OccursAt(s[1..], needle, i) <==> OccursAt(s, needle, i + 1) by {
        forall i: nat ensures OccursAt(s[1..], needle, i) <==> OccursAt(s, needle, i + 1) {
          if i + |needle| <= |s[1..]| {
            assert s[1..][i..i + |needle|] == s[i + 1..i + 1 + |needle|];
          }
        }
      }
      assert !OccursAt(s, needle, 0);
      assert (exists i: nat :: OccursAt(s, needle, i)) ==> exists i: nat :: OccursAt(s[1..], needle, i) by {
        if exists i: nat :: OccursAt(s, needle, i) {
          var i: nat :| OccursAt(s, needle, i);
          assert i > 0;
          assert OccursAt(s[1..], needle, i - 1);
        }
      }
      b
  }
}

=== FILE: values.dfy ===
/** The dynamically typed values the discovery job handles: what the
    Terraform parser emits and what the catalogue returns as JSON, together
    with the few Python operations on them the job relies on. */
module Values {
  import opened Text

  datatype Value =
    | Str(s: string)
    | Int(i: int)
    | Bool(b: bool)
    | Null
    | List(items: seq<Value>)
    | Dict(fields: map<string, Value>)

  /** A Python dict with string keys. */
  type Attrs = map<string, Value>

  datatype Option<+T> = None | Some(value: T)

  /** The Python exceptions the job can raise on malformed input. */
  datatype Fault = KeyError | TypeError | AttributeError

  /** A computation that returns a value or raises a Python exception. */
  datatype Result<+T> = Ok(value: T) | Raise(fault: Fault) {
    predicate IsFailure() {
      Raise?
    }

    function PropagateFailure<U>(): Result<U>
      requires Raise?
    {
      Raise(fault)
    }

    function Extract(): T
      requires Ok?
    {
      value
    }
  }

  /** Python truthiness: empty strings and containers, zero, False and None are false. */
  predicate Truthy(v: Value) {
    match v
    case Str(s) => s != ""
    case Int(i) => i != 0
    case Bool(b) => b
    case Null => false
    case List(xs) => xs != []
    case Dict(f) => f != map[]
  }

  /** `d[k]` on a dict: KeyError when the key is absent. */
  function Get(d: Attrs, k: string): (r: Result<Value>)
    ensures r.Ok? <==> k in d
    ensures r.Ok? ==> r.value == d[k]
    ensures r.Raise? ==> r.fault == KeyError
  {
    if k in d then Ok(d[k]) else Raise(KeyError)
  }

  /** Python's `needle in v` for a string needle: a substring test on a string,
      membership on a list, a key test on a dict, and a TypeError on anything
      that is not a container. */
  function In(needle: string, v: Value): (r: Result<bool>)
    ensures r.Raise? <==> v.Int? || v.Bool? || v.Null?
    ensures v.Str? ==> r == Ok(exists i: nat :: OccursAt(v.s, needle, i))
    ensures v.List? ==> r == Ok(Str(needle) in v.items)
    ensures v.Dict? ==> r == Ok(needle in v.fields)
  {
    match v
    case Str(s) => Ok(Contains(s, needle))
    case List(xs) => Ok(Str(needle) in xs)
    case Dict(f) => Ok(needle in f)
    case _ => Raise(TypeError)
  }

  /** `isinstance(v, int)`: Python's bool is a subclass of int. */
  predicate IsPyInt(v: Value) {
    v.Int? || v.Bool?
  }

  /** `str(v)` for a value that `IsPyInt`: the canonical decimal form of an
      int, and `True`/`False` for a bool. */
  function PyIntToString(v: Value): (r: string)
    requires IsPyInt(v)
    ensures v.Bool? ==> r == (if v.b then "True" else "False")
    ensures v.Int? ==> 1 <= |r| && (r[0] == '-' <==> v.i < 0)
    ensures v.Int? && v.i >= 0 ==> AllDigits(r) && DigitsValue(r) == v.i && (r[0] == '0' ==> r == "0")
    ensures v.Int? && v.i < 0 ==> 2 <= |r| && AllDigits(r[1..]) && DigitsValue(r[1..]) == Abs(v.i) && r[1] != '0'
  {
    match v
    case Int(i) => IntToString(i)
    case Bool(b) => if b then "True" else "False"
  }

  /** Two int-like values render alike only when they are the same value:
      a bool never renders like an int, and distinct ints render apart. */
  lemma PyIntToStringInjective(a: Value, b: Value)
    requires IsPyInt(a) && IsPyInt(b)
    requires PyIntToString(a) == PyIntToString(b)
    ensures a == b
  {
    if a.Int? && b.Int? {
      IntToStringInjective(a.i, b.i);
    }
  }
}
